=== FILE: README.md ===
# Form builder and responses: a Dafny model

This project models the pure logic of a form-builder web application. A creator builds a form from typed questions and saves it. A respondent fills it in. The creator then reads the answers back, one response at a time or as charts. The model covers:

- **Question-list editing.** Two builders are modelled: the `useFormBuilder` hook (module `FormBuilder`) and the older `form-builder.tsx` component (module `LegacyBuilder`). Both support appending, updating by id, deleting by id and drag-reordering. After a reorder, `order` is renumbered densely. The model also covers editing a choice question's option list (`OptionEditor`) and the save request each builder sends.
- **Normalisation.** `normalizeOptions` and `prepareFormData` (`FormUtils`): type lower-casing, title trimming, `order` set to the position, and options defaulted by type.
- **The create route.** The `POST` handler decides between 401, 400 and 201 and builds the question rows it asks the database to create (`CreateForm`). `SaveToCreate` connects the builders' save payloads to this handler.
- **The respondent side** (`RespondForm`, `CheckboxResponse`):
  - option normalisation at fetch time;
  - the answer and staged-image maps;
  - the fail-fast required-question gate;
  - the multipart payload and the renaming of image files;
  - the multi-select toggle.
- **Type dispatch** (`Dispatch`). Three `switch` tables map the eight question types to the builder's editors, the respondent's widgets and the results page's renderers. The respondent table swaps "checkbox" and "multiple".
- **Results** (`ChoiceHistogram`, `FormResponses`): how a choice question's answers are projected, the option → count histogram, the response-name rule and the per-day filter.
- **The middleware's access decision** (`Middleware`).

Supporting modules:

- `Text` models the JavaScript string built-ins the code relies on: `trim` with its exact whitespace set, `toLowerCase`, `startsWith`/`endsWith`/`includes`, `split(...).pop()`, and decimal numerals.
- `Seqs` holds filtering, splicing, `arrayMove` and the subsequence relation.
- `Wrappers` holds `Option`.

Non-determinism and foreign code become parameters:

- the random question id (`freshId`);
- `Date.now` (`stamp`);
- `JSON.parse` of a list-shaped answer (`parseList`);
- `parseISO` and `isSameDay` (`parseDate`, `sameDay`);
- the id the database assigns (`newId`);
- the session, reduced to a user id or the set of cookie names.

Three behaviours of the code are easy to miss:

- the route accepts a whitespace-only title and does not validate question titles;
- the respondent's gate stops at the first missing required answer;
- the respondent widget for "multiple" is the multi-select.

## Model

| member | source | states |
|---|---|---|
| FormTypes.ParseTypeName | src/types/form.ts:1 | every one of the eight type names is recognised as exactly its own type, so the type set is closed and its names are distinct |
| FormTypes.TypeNameInjective | src/types/form.ts:1 | two types with the same wire name are the same type |
| FormTypes.ApplyPatchIdempotent | src/hooks/useFormBuilder.ts:35 | merging the same `Partial<Question>` into a question twice gives the same question as merging it once |
| FormTypes.ApplyPatch | src/hooks/useFormBuilder.ts:35 | the spread `{ ...q, ...updates }`: every field the update carries (id, type, title, required flag, image flag, options, image, location and file URLs) comes from the update when present and from the question otherwise, and `order` is kept |
| FormUtils.NormalizeOptions | src/utils/formUtils.ts:3-16 | a type that is not a choice type, compared after lower-casing, gets no options. A choice type gets the in-order subsequence of the array (or of the `{ set }` array) whose entries are not blank, each entry kept untrimmed and as often as it occurred |
| FormUtils.NormalizeOptionsIdempotent | src/utils/formUtils.ts:13 | normalising already-normalised options gives them back unchanged |
| FormUtils.PrepareFormData | src/utils/formUtils.ts:18-33 | title and description are trimmed. The question list keeps its length, order and ids, and `order` equals the position. Titles are trimmed, types lower-cased and flags false unless set. Choice types carry their options unfiltered (`[]` when absent); other types carry none |
| FormUtils.PrepareFormDataIdempotent | src/utils/formUtils.ts:18-33 | preparing a prepared payload again gives the same payload: the preparation is a normal form |
| FormUtils.PreparedQuestionsAreNormal | src/utils/formUtils.ts:24-25 | every prepared title is already trimmed and every prepared type already lower-case |
| Text.BlankIffAllSpace | src/utils/formUtils.ts:13 | `opt.trim() !== ""` fails exactly for strings made only of ECMAScript whitespace and line terminators |
| Text.Trim | src/utils/formUtils.ts:20 | `trim()` returns the slice left after dropping the leading and the trailing ECMAScript whitespace and line terminators: everything dropped is whitespace, and the result neither starts nor ends with it |
| Text.ToLower | src/utils/formUtils.ts:25 | `toLowerCase()` keeps the length and lower-cases each character on its own |
| FormBuilder.InitialState | src/hooks/useFormBuilder.ts:8-17 | without a form the builder starts empty. With a form, title and description are kept, and each question is the given one with its type lower-cased and its options normalised, every other field unchanged. So every type is lower-case, every option non-blank, and non-choice questions have an empty list |
| FormBuilder.LoadIdempotent | src/hooks/useFormBuilder.ts:11-17 | loading an already loaded question changes nothing |
| FormBuilder.AddQuestion | src/hooks/useFormBuilder.ts:22-31 | exactly one question is appended: short, empty title, not required, empty option list, with the given id. The existing questions are kept as they were |
| FormBuilder.UpdateQuestion | src/hooks/useFormBuilder.ts:33-37 | the length is kept. Every question with the id gets the update merged in, and every other question is unchanged |
| FormBuilder.UpdateQuestionIdempotent | src/hooks/useFormBuilder.ts:33-37 | repeating an update changes nothing more, even when the update renames the matching questions |
| FormBuilder.UpdateQuestionKeepsIds | src/hooks/useFormBuilder.ts:33-37 | an update that does not set `id` keeps the id list |
| FormBuilder.DeleteQuestion | src/hooks/useFormBuilder.ts:39-41 | no question with the id is left. The rest are an in-order subsequence of the list, each kept as many times as before |
| FormBuilder.DeleteAbsentIsNoop | src/hooks/useFormBuilder.ts:39-41 | deleting an id no question carries leaves the list unchanged |
| FormBuilder.FirstIndex | src/hooks/useFormBuilder.ts:47-48 | the position found holds the id and no earlier position does |
| Seqs.Move | src/hooks/useFormBuilder.ts:49 | `arrayMove(items, from, to)` keeps the length, puts the moved element at `to`, keeps the other elements in order, and is a permutation |
| FormBuilder.DragEnd | src/hooks/useFormBuilder.ts:43-56 | equal ids leave the list as it was. Otherwise the result has the same length and `order` 0..n-1. Ignoring `order`, it is a permutation of the list, with the dragged question at the drop target's position and the others in their previous relative order |
| FormBuilder.DragEndShape | src/hooks/useFormBuilder.ts:49-53 | a renumbered move has the list's length and `order` 0..n-1, and ignoring `order` it is the permutation that takes the element at `from` to `to` |
| FormBuilder.RenumberedMove | src/hooks/useFormBuilder.ts:49-53 | renumbering after a move changes nothing but `order` |
| FormBuilder.Renumber | src/hooks/useFormBuilder.ts:50-53 | each question keeps its place and content, and its `order` becomes its index |
| FormBuilder.DragEndPlacesDragged | src/hooks/useFormBuilder.ts:45-53 | the question at the drop position is the dragged question itself, with only `order` rewritten |
| FormBuilder.SaveForm | src/hooks/useFormBuilder.ts:58-79 | nothing is sent iff the trimmed title is empty. Otherwise it sends PUT to `/api/forms/{id}/edit` iff the edited form has an id, else POST to `/api/createForms`, and the body is `prepareFormData` of the state |
| LegacyBuilder.InitialStatesDifferByLoading | src/app/app/_components/form-builder.tsx:500-506 | the component starts from the questions as given; the hook's start differs only by loading each question |
| LegacyBuilder.LegacyAddQuestion | src/app/app/_components/form-builder.tsx:517-526 | one question is appended (short, empty title, not required, image attachment off, no option list) and the rest are kept |
| LegacyBuilder.AddQuestionDefaultsDiffer | src/app/app/_components/form-builder.tsx:517-526 | the two `addQuestion`s differ only in the defaults of `allowImage` and `options` |
| LegacyBuilder.LegacyPayload | src/app/app/_components/form-builder.tsx:557-569 | the title is trimmed, and the description is the trimmed text or null when that is empty. Per question: id kept, trimmed title, type not lower-cased, flags false unless set, `order` the position, options `[]` when absent for every type |
| LegacyBuilder.PayloadsAgreeOnNormalQuestions | src/app/app/_components/form-builder.tsx:557-569 | on a question with a lower-case type, the legacy payload and `prepareFormData` agree on everything but options. Options agree for choice types; non-choice types get a list from one and nothing from the other |
| LegacyBuilder.LegacySave | src/app/app/_components/form-builder.tsx:555-579 | always sends, whatever the title: PUT to the edit endpoint iff the form has an id, else POST to the create endpoint |
| LegacyBuilder.SavesChooseSameEndpoint | src/app/app/_components/form-builder.tsx:576-579 | both builders choose the same method and URL, and the hook refuses exactly the titles the legacy payload sends as empty |
| LegacyBuilder.ImageToggleTypes | src/app/app/_components/form-builder.tsx:435-439 | among the eight types the image-attachment toggle is offered exactly for short, long and location |
| LegacyBuilder.ImageToggleIsCaseSensitive | src/app/app/_components/form-builder.tsx:435-439 | the comparison is verbatim, so an upper-case "CHECKBOX" is offered the toggle |
| LegacyBuilder.OptionEditTouchesOnlyOptions | src/app/app/_components/form-builder.tsx:376-380 | an option edit replaces the options of the edited question and nothing else in the list |
| OptionEditor.OptionsOrEmpty | src/app/app/_components/form-builder/QuestionInputs/CheckboxInput.tsx:15 | absent options are read as the empty list, and present options are returned as they are |
| OptionEditor.AddOption | src/app/app/_components/form-builder/QuestionInputs/CheckboxInput.tsx:17-20 | the list grows by one, its prefix is unchanged, and the new entry is "Opção n" with n its 1-based position |
| OptionEditor.OptionLabelInjective | src/app/app/_components/form-builder/QuestionInputs/CheckboxInput.tsx:18 | different positions get different default labels |
| Text.NatToString | src/app/app/_components/form-builder/QuestionInputs/CheckboxInput.tsx:18 | the numeral in a template literal is a non-empty string of decimal digits with no leading zero |
| OptionEditor.UpdateOption | src/app/app/_components/form-builder/QuestionInputs/CheckboxInput.tsx:22-26 | the length is kept and only the edited index changes |
| OptionEditor.RemoveOption | src/app/app/_components/form-builder/QuestionInputs/CheckboxInput.tsx:28-31 | exactly the given index is dropped and the rest keep their order. An index past the end removes nothing |
| OptionEditor.RemoveOptionMatchesSplice | src/app/app/_components/form-builder.tsx:387-391 | the legacy `splice(index, 1)` and the index filter remove the same option for every index |
| OptionEditor.RemoveThenAddRepeatsLabel | src/app/app/_components/form-builder/QuestionInputs/CheckboxInput.tsx:17-31 | default labels are not fresh: removing the first of two defaults and adding one yields "Opção 2" twice |
| CreateForm.RowOrder | src/app/api/createForms/route.ts:40 | a row's order is the supplied one unless it is absent or 0, and then it is the position |
| CreateForm.RowOptions | src/app/api/createForms/route.ts:41 | options are stored as null exactly when absent or empty, and as given otherwise |
| CreateForm.QuestionRows | src/app/api/createForms/route.ts:35-42 | one row per submitted question, in submission order, each built from its own question and position |
| CreateForm.HandlePost | src/app/api/createForms/route.ts:8-52 | 401 iff there is no user id. Otherwise 400 iff the title is falsy or the questions are not a non-empty array. Otherwise 201 with the assigned id, the creator, the title as sent, and a null description exactly when it is empty or absent. The rows follow the submission order with trimmed titles, false-defaulted flags, `order || index`, and null for empty options |
| CreateForm.BlankTitleIsAccepted | src/app/api/createForms/route.ts:19 | a whitespace-only title is truthy, passes validation and is stored untrimmed |
| CreateForm.OrdersFollowPositions | src/app/api/createForms/route.ts:40 | when every supplied order is absent or equal to the position, the stored orders are 0..n-1 |
| CreateForm.ZeroOrderFallsBackToIndex | src/app/api/createForms/route.ts:40 | an explicit order 0 after the first row is replaced by the position, so two rows can share an order |
| SaveToCreate.HookSaveIsCreated | src/app/api/createForms/route.ts:19-45 | a non-empty new form saved by the hook for a signed-in user is created with the trimmed title, orders 0..n-1, trimmed titles and lower-cased types |
| SaveToCreate.HookSaveOfEmptyFormIsRefused | src/app/api/createForms/route.ts:19-24 | a hook save of a form without questions passes the client gate and is refused with 400 |
| SaveToCreate.LegacyBlankTitleIsRefused | src/app/api/createForms/route.ts:19-24 | the legacy builder sends blank titles trimmed to "", which the route refuses with 400 |
| SaveToCreate.LegacyRowsNullOptions | src/app/api/createForms/route.ts:41 | from the legacy payload a row gets null options exactly when the question's list is absent or empty |
| RespondForm.FetchOptions | src/hooks/useRespondForm.ts:36-49 | a fetched question of a non-choice type gets no options. A choice type gets its non-blank entries, or none when the value is not an array |
| RespondForm.FetchAgreesWithNormalize | src/hooks/useRespondForm.ts:38-43 | fetch-time normalisation equals `normalizeOptions` except on a `{ set }` wrapper, which only the latter unwraps |
| RespondForm.FetchedQuestionIsNormal | src/hooks/useRespondForm.ts:36-49 | a fetched question has a lower-case type and non-blank options, and none unless it is a choice type |
| RespondForm.HandleInputChange | src/hooks/useRespondForm.ts:65-67 | the question's entry becomes the value and every other entry is unchanged |
| RespondForm.RemoveImage | src/hooks/useRespondForm.ts:133-139 | only that question's staged image is removed |
| RespondForm.FirstMissing | src/hooks/useRespondForm.ts:145-154 | no position is reported iff every question passes the gate. A reported position fails it, and every earlier one passes |
| RespondForm.RequiredGate | src/hooks/useRespondForm.ts:145-154 | the scan in form order stops at the first question that fails the gate, and that question is required |
| RespondForm.GateTruthiness | src/hooks/useRespondForm.ts:146 | a staged image alone satisfies a required question; `""` does not, an empty selection does |
| RespondForm.EntryFor | src/hooks/useRespondForm.ts:161-166 | an unanswered question gets an all-null entry. An answered one carries its value. Latitude and longitude are the location's own coordinates when the value is a location, and null otherwise |
| RespondForm.ResponsesPart | src/hooks/useRespondForm.ts:160-168 | the responses part has exactly one entry per question id, each built from that question's answer |
| Text.LastSegmentOfJoin | src/hooks/useRespondForm.ts:172-174 | the text after the last dot of `{head}.{ext}` is `ext` when `ext` has no dot |
| Text.LastSegment | src/hooks/useRespondForm.ts:172 | `split(".").pop()` is the longest suffix without a dot: either the whole string, or what follows its last dot |
| Seqs.Filter | src/hooks/useFormBuilder.ts:40 | `Array.prototype.filter`: every kept element passes the test, and each value occurs as often as in the input when it passes and not at all otherwise |
| Seqs.Map | src/hooks/useFormBuilder.ts:35 | `Array.prototype.map`: same length, and each position holds the function applied to the input's element there |
| Seqs.RemoveAt | src/app/app/_components/form-builder.tsx:389 | `splice(i, 1)`: an in-range position is dropped and the elements before and after it keep their order; a position past the end changes nothing |
| RespondForm.RenameImage | src/hooks/useRespondForm.ts:172-175 | the renamed file keeps its MIME type, its name is exactly `{id}-{timestamp}.{ext}`: it starts with `{id}-{timestamp}.`, ends with `.` and the original's text after its last dot, and is no longer than those two parts |
| RespondForm.RenameKeepsExtension | src/hooks/useRespondForm.ts:172-174 | the text after the last dot of the new name is that of the original name, whatever dots the id contains |
| RespondForm.PartNameInjective | src/hooks/useRespondForm.ts:176 | different question ids give different part names `image-{id}` |
| RespondForm.ImageParts | src/hooks/useRespondForm.ts:171-177 | there is exactly one renamed image part per staged image, keyed by its question |
| RespondForm.HandleSubmit | src/hooks/useRespondForm.ts:141-177 | the submission is rejected iff some question fails the gate, and then it names the first failing question in form order. Otherwise every question id has the entry built from its answer, and every staged image has a part holding that image renamed with its own timestamp |
| CheckboxResponse.CurrentSelection | src/app/app/_components/respond-form/ResponseInputs/CheckboxResponse.tsx:25 | a response that is not a list reads as the empty selection |
| CheckboxResponse.Toggle | src/app/app/_components/respond-form/ResponseInputs/CheckboxResponse.tsx:37-39 | checking appends the option at the end. Unchecking removes every occurrence and keeps the rest in order with their multiplicities |
| CheckboxResponse.ToggleSetsCheckedState | src/app/app/_components/respond-form/ResponseInputs/CheckboxResponse.tsx:35-39 | after a change the option shows as checked exactly when it was checked |
| CheckboxResponse.CheckThenUncheck | src/app/app/_components/respond-form/ResponseInputs/CheckboxResponse.tsx:37-39 | checking an unchecked option and unchecking it again restores the selection |
| CheckboxResponse.OnCheckedChange | src/app/app/_components/respond-form/ResponseInputs/CheckboxResponse.tsx:36-40 | the new selection is reported under this question's id only; every other answer is kept |
| Dispatch.BuilderEditorsCoverTypes | src/app/app/_components/form-builder/QuestionInputs/QuestionInput.tsx:17-35 | the builder has an editor exactly for the eight type names, the one named after the type |
| Dispatch.BuilderEditorFor | src/app/app/_components/form-builder/QuestionInputs/QuestionInput.tsx:17-35 | an editor exists exactly for the eight type names, spelled exactly, and it is the one named after the type |
| Dispatch.EditorOfInjective | src/app/app/_components/form-builder/QuestionInputs/QuestionInput.tsx:18-33 | distinct types get distinct editors, so the builder does not swap the choice editors |
| Dispatch.BuilderDispatchIsCaseSensitive | src/app/app/_components/form-builder/QuestionInputs/QuestionInput.tsx:17 | the builder matches exactly, so "Short" has no editor |
| Dispatch.RespondentDispatchIgnoresCase | src/app/app/_components/respond-form/ResponseInputs/ResponseInput.tsx:40 | the respondent widget depends only on the lower-cased type |
| Dispatch.RespondentWidgets | src/app/app/_components/respond-form/ResponseInputs/ResponseInput.tsx:40-56 | short, long, location, image and date get their own widgets. "checkbox" gets the radio widget, "multiple" gets the multi-select, and "file" gets none |
| Dispatch.RespondentWidgetFor | src/app/app/_components/respond-form/ResponseInputs/ResponseInput.tsx:40-56 | a widget exists exactly when the lower-cased type is one of the eight names other than "file" |
| Dispatch.ChoiceWidgetsAreSwapped | src/app/app/_components/respond-form/ResponseInputs/ResponseInput.tsx:45-48 | the respondent swaps the choice widgets relative to the builder's editors |
| Dispatch.UpperCaseTypeHasWidget | src/app/app/_components/respond-form/ResponseInputs/ResponseInput.tsx:40-42 | an upper-case type still reaches its widget |
| Dispatch.FileIsTheOnlyUnsupportedType | src/app/app/_components/responses-form/ResponseRenderers/ResponseRenderer.tsx:27-51 | among the eight types only "file" falls to the unsupported message, and it is also the only one without a respondent widget |
| Dispatch.RendererFor | src/app/app/_components/responses-form/ResponseRenderers/ResponseRenderer.tsx:27-51 | short and long share the text renderer, date, image and location each get their own, "checkbox" and "multiple" exactly get the choice renderer, and every other string, "file" included, gets the unsupported message |
| Dispatch.UnknownTypeIsUnsupported | src/app/app/_components/responses-form/ResponseRenderers/ResponseRenderer.tsx:50-51 | any other string is unsupported on the results page and has no builder editor |
| Dispatch.ChoiceRendererIffChoiceName | src/app/app/_components/responses-form/ResponseRenderers/ResponseRenderer.tsx:33-35 | the choice renderer is used exactly for "checkbox" and "multiple" |
| ChoiceHistogram.Projection | src/app/app/_components/responses-form/ResponseRenderers/ChoiceResponseRenderer.tsx:20-22 | the all-responses view has one answer per response in order, a missing one read as empty. The individual view has only the first response's answer and needs a response |
| ChoiceHistogram.CellText | src/app/app/_components/responses-form/ResponseRenderers/ChoiceResponseRenderer.tsx:69 | the table cell is never empty: it shows the text whenever that is non-empty, and "Nenhuma resposta" otherwise |
| ChoiceHistogram.CellTextPlaceholder | src/app/app/_components/responses-form/ResponseRenderers/ChoiceResponseRenderer.tsx:69 | "Nenhuma resposta" shows exactly when the text is missing, empty or itself that placeholder; any other cell is the answer's own text |
| ChoiceHistogram.Elements | src/app/app/_components/responses-form/ResponseRenderers/ChoiceResponseRenderer.tsx:26-27 | only a "multiple" answer whose text starts with "[" is decoded as a list. Any other answer is one element, its text, or "" when missing |
| ChoiceHistogram.Tally | src/app/app/_components/responses-form/ResponseRenderers/ChoiceResponseRenderer.tsx:25-32 | the keys are exactly the elements that occur, each counted as often as it occurs, and no count is zero |
| ChoiceHistogram.OptionCounts | src/app/app/_components/responses-form/ResponseRenderers/ChoiceResponseRenderer.tsx:25-32 | the histogram's keys are the decoded elements of all answers, with their multiplicities as counts |
| ChoiceHistogram.TallySum | src/app/app/_components/responses-form/ResponseRenderers/ChoiceResponseRenderer.tsx:28-30 | the counts add up to the number of elements, duplicates included |
| ChoiceHistogram.HistogramTotal | src/app/app/_components/responses-form/ResponseRenderers/ChoiceResponseRenderer.tsx:25-33 | the charted counts add up to the number of decoded elements |
| ChoiceHistogram.WholeTextsUnlessMultiple | src/app/app/_components/responses-form/ResponseRenderers/ChoiceResponseRenderer.tsx:27 | for any type but "multiple" each answer contributes exactly its text |
| ChoiceHistogram.CheckboxChartCountsResponses | src/app/app/_components/responses-form/ResponseRenderers/ChoiceResponseRenderer.tsx:20-32 | a checkbox question's chart counts every response exactly once |
| ChoiceHistogram.MissingAnswerCountsAsEmptyKey | src/app/app/_components/responses-form/ResponseRenderers/ChoiceResponseRenderer.tsx:26 | a missing answer and an empty text are both counted under "" |
| ChoiceHistogram.DecodingMatchesMultiSelect | src/app/app/_components/responses-form/ResponseRenderers/ChoiceResponseRenderer.tsx:27 | among the eight types, lists are decoded exactly for the type whose respondent widget is the multi-select |
| FormResponses.ResponseDates | src/hooks/useFormResponses.ts:53 | one parsed date per response, in response order |
| FormResponses.ResponseName | src/hooks/useFormResponses.ts:55-60 | the name is never empty. It is "Sem nome" without questions, and otherwise the first question's non-empty answer text or "Sem nome" |
| FormResponses.ResponseNameDefault | src/hooks/useFormResponses.ts:56-59 | "Sem nome" is shown exactly when there is no question, the first answer's text is absent or empty, or that text is "Sem nome" |
| FormResponses.FilteredResponses | src/hooks/useFormResponses.ts:62-65 | without a selected day the list is unchanged. With one, the result is the in-order subsequence of responses on that day, with multiplicities |
| FormResponses.AllOnDayKeepsAll | src/hooks/useFormResponses.ts:64 | when every response is on the selected day nothing is filtered out |
| FormResponses.FilterByDayIdempotent | src/hooks/useFormResponses.ts:62-65 | filtering the filtered list again by the same day changes nothing |
| FormResponses.DayHasResponsesIffSomeDate | src/hooks/useFormResponses.ts:53-65 | a selected day shows at least one response exactly when one of the parsed response dates falls on that day |
| Middleware.Decide | src/middleware.ts:3-23 | a request is redirected exactly when its path is not public, starts with "/app", and lacks the session cookie; so never for a path ending in "/success" |
| Middleware.SessionAlwaysPasses | src/middleware.ts:18-22 | a request with the session cookie always passes |
| Middleware.OutsideAppPasses | src/middleware.ts:18-22 | a path that does not start with "/app" always passes |
| Middleware.SuccessPagesArePublic | src/middleware.ts:13 | `&&` binds tighter than the or-operator, so any path ending in "/success" passes without a session |
| Middleware.RespondPageIsPublic | src/middleware.ts:13-15 | a respond page under "/app/forms" passes without a session |
| Middleware.AppPrefixIsGuarded | src/middleware.ts:18-20 | without a session "/app" is redirected, and so is "/application", because the prefix test is a plain prefix match |
| Middleware.ProductionIgnoresDevelopmentCookie | src/middleware.ts:4-8 | in production the development cookie name does not authenticate |

## Left out

- Network and persistence are not modelled: `fetch`, the Prisma client and the response routes. The create handler returns the rows it would hand to the database, with the assigned id as a parameter. The route's 500 path (an exception from the database or a malformed body) is left out.
- Authentication is reduced to an optional user id (create route) and the set of cookie names (middleware). NextAuth and bcrypt are external.
- The edit and respond routes (`/api/forms/{id}/edit`, `/api/forms/{id}/responder`) are not part of this model. Only the requests aimed at them are modelled.
- React state plumbing, toasts, routing and rendering are left out. Only the updater functions and the dispatch tables are modelled.
- Image compression, geolocation, `FileReader` and `URL.createObjectURL` are browser APIs and are left out. Their results arrive as values (`StagedFile`, `Coords`).
- Coordinates are `real`. Floating point, `JSON.parse` of stored locations and the location renderer are left out.
- Text.LowerChar: `toLowerCase` is modelled for Basic Latin and Latin-1 letters only. Full Unicode case mapping is not modelled, because type names are ASCII.
- Seqs.Move: `arrayMove` comes from a library. It is modelled for in-range indices only, so FormBuilder.DragEnd requires both ids to be present. Drag events come from the sortable items themselves. The `-1` index that `findIndex` would give for an unknown id is not modelled.
- Both drag handlers throw when a drag ends outside any item (`over` is null). The legacy `handleDragEnd` reads `over.id` without `?.`. The hook's handler (src/hooks/useFormBuilder.ts:45-48) passes the guard `active.id !== over?.id` and then reads `over.id` inside the updater. Exceptions are not modelled: FormBuilder.DragEnd, which models both handlers, requires the drop to be on an item.
- The legacy builder's update, delete and drag updaters are identical to the hook's and are modelled once, in FormBuilder. The legacy option add and edit are identical to OptionEditor's AddOption and UpdateOption.
- The `{ set }` shape of options is modelled only as an input of FormUtils.NormalizeOptions and RespondForm.FetchOptions. A stored question's `options` is a list or absent.
- `JSON.parse` of a list-shaped "multiple" answer is the parameter `parseList`. Its failure (a throw) and non-string elements are not modelled.
- ChoiceHistogram.Tally: counts are accumulated in a plain object. The source therefore misbehaves on keys inherited from `Object.prototype` ("constructor", "toString", ...). The model treats every key as fresh. The order of the chart entries (`Object.entries`) is not modelled; the histogram is a map.
- Dates are abstract. `parseISO` and `isSameDay` are the parameters `parseDate` and `sameDay`, and the calendar, `format` and timezone handling are not modelled.
- The multi-select's `onCheckedChange` can also receive "indeterminate", which is truthy. The model takes a boolean.
- Not modelled: PDF export, charts, maps, and the text, image and date renderers. These are display-only over the same answer projection.
- The middleware's `config.matcher` regex, which decides which paths reach the middleware, is not modelled.
- The random id, `Date.now` and the database's id are parameters. Their freshness and uniqueness are not modelled.

=== FILE: checkbox_response.dfy ===
/** src/app/app/_components/respond-form/ResponseInputs/CheckboxResponse.tsx:
    the multi-select widget's selection toggle. */
module CheckboxResponse {
  import opened Wrappers
  import opened RespondForm
  import Seqs

  /** `Array.isArray(response) ? response : []`. */
  function CurrentSelection(response: Option<ResponseValue>): (r: seq<string>)
    ensures response.Some? && response.value.Selection? ==> r == response.value.items
    ensures !(response.Some? && response.value.Selection?) ==> r == []
  {
    if response.Some? && response.value.Selection? then response.value.items else []
  }

  /** An option is shown checked iff it is in the current selection. */
  predicate IsChecked(response: Option<ResponseValue>, option: string) {
    option in CurrentSelection(response)
  }

  /** The new selection after the option's box changes to `checked`: checking
      appends the option at the end; unchecking removes every occurrence of it
      and keeps the rest, in order and with their multiplicities. */
  function Toggle(response: Option<ResponseValue>, option: string, checked: bool): (r: seq<string>)
    ensures checked ==> r == CurrentSelection(response) + [option]
    ensures !checked ==> option !in r
    ensures !checked ==> Seqs.SubsequenceOf(r, CurrentSelection(response))
    ensures !checked ==> forall x :: x != option ==> multiset(r)[x] == multiset(CurrentSelection(response))[x]
  {
    var cur := CurrentSelection(response);
    if checked then cur + [option]
    else
      var r := Seqs.Filter(cur, (v: string) => v != option);
      Seqs.FilterIsSubsequence(cur, (v: string) => v != option);
      Seqs.FilterMembership(cur, (v: string) => v != option, option);
      r
  }

  /** The change reported through `onInputChange(question.id, next)`: only this
      question's answer changes, and it becomes the new selection. */
  function OnCheckedChange(responses: map<string, ResponseValue>, questionId: string, option: string, checked: bool)
    : (r: map<string, ResponseValue>)
    ensures questionId in r && r[questionId].Selection?
    ensures r[questionId].items == Toggle(if questionId in responses then Some(responses[questionId]) else None, option, checked)
    ensures forall k :: k in responses && k != questionId ==> k in r && r[k] == responses[k]
    ensures r.Keys == responses.Keys + {questionId}
  {
    var current := if questionId in responses then Some(responses[questionId]) else None;
    HandleInputChange(responses, questionId, Selection(Toggle(current, option, checked)))
  }

  /** Checking a box makes it checked; unchecking makes it unchecked. */
  lemma ToggleSetsCheckedState(response: Option<ResponseValue>, option: string, checked: bool)
    ensures IsChecked(Some(Selection(Toggle(response, option, checked))), option) == checked
  {
  }

  /** Checking an unchecked option and unchecking it again restores the selection. */
  lemma {:induction false} CheckThenUncheck(response: Option<ResponseValue>, option: string)
    requires !IsChecked(response, option)
    ensures Toggle(Some(Selection(Toggle(response, option, true))), option, false) == CurrentSelection(response)
  {
    var cur := CurrentSelection(response);
    var p := (v: string) => v != option;
    Seqs.FilterAllPass(cur, p);
    assert Seqs.Filter(cur + [option], p) == Seqs.Filter(cur, p) by {
      FilterDropsLast(cur, option, p);
    }
  }

  lemma {:induction false} FilterDropsLast(s: seq<string>, x: string, p: string -> bool)
    requires !p(x)
    ensures Seqs.Filter(s + [x], p) == Seqs.Filter(s, p)
  {
    if s != [] {
      assert (s + [x])[1..] == s[1..] + [x];
      FilterDropsLast(s[1..], x, p);
    }
  }
}

=== FILE: choice_histogram.dfy ===
/** src/app/app/_components/responses-form/ResponseRenderers/ChoiceResponseRenderer.tsx:
    which stored answers a choice question's results view looks at, and the
    option → count histogram charted in the all-responses view. */
module ChoiceHistogram {
  import opened Wrappers
  import opened Text
  import opened FormTypes
  import Seqs
  import Dispatch

  /** `responseArray`: in the all-responses view one answer per response, in
      response order, a missing answer read as an empty record (an object is
      always truthy, so `.filter(Boolean)` keeps them all); otherwise only the
      first response's answer, which is why that view needs a response. */
  function Projection(responses: seq<FormResponse>, questionId: string, allResponses: bool): (r: seq<AnswerRecord>)
    requires allResponses || |responses| > 0
    ensures allResponses ==> |r| == |responses|
    ensures allResponses ==> forall i :: 0 <= i < |responses| ==>
      r[i] == (if questionId in responses[i].answers then responses[i].answers[questionId] else EmptyAnswer)
    ensures !allResponses ==> |r| == 1
    ensures !allResponses ==> r[0] == AnswerFor(responses[0], questionId)
  {
    if allResponses then Seqs.Map(responses, (resp: FormResponse) => AnswerFor(resp, questionId))
    else [AnswerFor(responses[0], questionId)]
  }

  const NoAnswer := "Nenhuma resposta"

  /** The individual view's cell: the text, or "Nenhuma resposta" when it is absent or empty. */
  function CellText(a: AnswerRecord): (r: string)
    ensures r != ""
    ensures a.text.Some? && a.text.value != "" ==> r == a.text.value
    ensures !(a.text.Some? && a.text.value != "") ==> r == NoAnswer
  {
    if a.text.Some? && a.text.value != "" then a.text.value else NoAnswer
  }

  /** The placeholder is shown exactly when the answer has no text, an empty
      text, or the placeholder itself as its text; any other cell is the answer. */
  lemma CellTextPlaceholder(a: AnswerRecord)
    ensures CellText(a) == NoAnswer <==> a.text.GetOr("") in {"", NoAnswer}
    ensures CellText(a) != NoAnswer ==> a.text == Some(CellText(a))
  {
  }

  /** Only a "multiple" question's answers are read as encoded lists. */
  predicate DecodesLists(qtype: string) {
    qtype == "multiple"
  }

  /** The elements one answer contributes: its text (`""` when missing), or,
      for a "multiple" question whose text starts with "[", the list that
      text decodes to; `parseList` stands for `JSON.parse`. */
  function Elements(qtype: string, a: AnswerRecord, parseList: string -> seq<string>): (r: seq<string>)
    ensures !(DecodesLists(qtype) && StartsWith(a.text.GetOr(""), "[")) ==> r == [a.text.GetOr("")]
    ensures DecodesLists(qtype) && StartsWith(a.text.GetOr(""), "[") ==> r == parseList(a.text.GetOr(""))
  {
    var text := a.text.GetOr("");
    if DecodesLists(qtype) && StartsWith(text, "[") then parseList(text) else [text]
  }

  /** The elements of all answers, answer after answer. */
  function AllElements(qtype: string, answers: seq<AnswerRecord>, parseList: string -> seq<string>): seq<string> {
    if answers == [] then []
    else AllElements(qtype, answers[..|answers| - 1], parseList) + Elements(qtype, answers[|answers| - 1], parseList)
  }

  /** The `reduce` that counts: `acc[opt] = (acc[opt] || 0) + 1` for each element
      in turn. Exactly the elements that occur are keys, each counted as often
      as it occurs; no key has count 0. */
  function Tally(xs: seq<string>): (r: map<string, nat>)
    ensures forall k :: k in r <==> k in xs
    ensures forall k :: k in r ==> r[k] == multiset(xs)[k] && r[k] > 0
  {
    if xs == [] then map[]
    else
      var init := xs[..|xs| - 1];
      var last := xs[|xs| - 1];
      assert xs == init + [last];
      var m := Tally(init);
      m[last := (if last in m then m[last] else 0) + 1]
  }

  /** `optionCounts` of the all-responses view. */
  function OptionCounts(qtype: string, answers: seq<AnswerRecord>, parseList: string -> seq<string>): (r: map<string, nat>)
    ensures forall k :: k in r <==> k in AllElements(qtype, answers, parseList)
    ensures forall k :: k in r ==> r[k] == multiset(AllElements(qtype, answers, parseList))[k]
  {
    Tally(AllElements(qtype, answers, parseList))
  }

  /** The sum of a histogram's counts. */
  ghost function SumValues(m: map<string, nat>): nat
    decreases |m.Keys|
  {
    if m == map[] then 0
    else
      var k :| k in m;
      m[k] + SumValues(m - {k})
  }

  /** The sum does not depend on which key is taken first. */
  lemma {:induction false} SumValuesRemove(m: map<string, nat>, k: string)
    requires k in m
    ensures SumValues(m) == m[k] + SumValues(m - {k})
    decreases |m.Keys|
  {
    var j :| j in m && SumValues(m) == m[j] + SumValues(m - {j});
    if j != k {
      assert |(m - {j}).Keys| < |m.Keys| by {
        assert (m - {j}).Keys == m.Keys - {j};
      }
      assert |(m - {k}).Keys| < |m.Keys| by {
        assert (m - {k}).Keys == m.Keys - {k};
      }
      SumValuesRemove(m - {j}, k);
      SumValuesRemove(m - {k}, j);
      assert m - {j} - {k} == m - {k} - {j};
    }
  }

  /** Setting one key's count changes the sum by the difference. */
  lemma SumValuesUpdate(m: map<string, nat>, k: string, v: nat)
    ensures SumValues(m[k := v]) + (if k in m then m[k] else 0) == v + SumValues(m)
  {
    SumValuesRemove(m[k := v], k);
    assert m[k := v] - {k} == m - {k};
    if k in m {
      SumValuesRemove(m, k);
    } else {
      assert m - {k} == m;
    }
  }

  /** Every element is counted once: the counts add up to the number of elements. */
  lemma {:induction false} TallySum(xs: seq<string>)
    ensures SumValues(Tally(xs)) == |xs|
  {
    if xs != [] {
      var init := xs[..|xs| - 1];
      var last := xs[|xs| - 1];
      var m := Tally(init);
      TallySum(init);
      var v := (if last in m then m[last] else 0) + 1;
      assert Tally(xs) == m[last := v];
      SumValuesUpdate(m, last, v);
    }
  }

  /** The charted counts add up to the number of decoded elements. */
  lemma {:induction false} HistogramTotal(qtype: string, answers: seq<AnswerRecord>, parseList: string -> seq<string>)
    ensures SumValues(OptionCounts(qtype, answers, parseList)) == |AllElements(qtype, answers, parseList)|
  {
    TallySum(AllElements(qtype, answers, parseList));
  }

  /** For any type but "multiple" each answer is one element, its text. */
  lemma {:induction false} WholeTextsUnlessMultiple(qtype: string, answers: seq<AnswerRecord>, parseList: string -> seq<string>)
    requires !DecodesLists(qtype)
    ensures |AllElements(qtype, answers, parseList)| == |answers|
    ensures forall i :: 0 <= i < |answers| ==> AllElements(qtype, answers, parseList)[i] == answers[i].text.GetOr("")
  {
    if answers != [] {
      WholeTextsUnlessMultiple(qtype, answers[..|answers| - 1], parseList);
    }
  }

  /** So a checkbox question's chart counts every response exactly once. */
  lemma CheckboxChartCountsResponses(responses: seq<FormResponse>, questionId: string, parseList: string -> seq<string>)
    ensures SumValues(OptionCounts("checkbox", Projection(responses, questionId, true), parseList)) == |responses|
  {
    WholeTextsUnlessMultiple("checkbox", Projection(responses, questionId, true), parseList);
    HistogramTotal("checkbox", Projection(responses, questionId, true), parseList);
  }

  /** A missing answer and an empty text are both counted under the key "". */
  lemma MissingAnswerCountsAsEmptyKey(qtype: string, parseList: string -> seq<string>)
    ensures Elements(qtype, EmptyAnswer, parseList) == [""]
    ensures Elements(qtype, AnswerRecord(Some(""), None, None), parseList) == [""]
  {
  }

  /** Decoding follows the respondent table: among the eight types, answers are
      decoded as lists exactly for the type whose respondent widget is the
      multi-select, which is "multiple" and not "checkbox". */
  lemma DecodingMatchesMultiSelect(t: FormTypes.QuestionType)
    ensures DecodesLists(TypeName(t)) <==> Dispatch.RespondentWidgetFor(TypeName(t)) == Some(Dispatch.CheckboxResponse)
  {
    Dispatch.RespondentWidgets(t);
  }
}

=== FILE: create_form.dfy ===
/** src/app/api/createForms/route.ts: the POST handler's accept/reject decision
    and the rows it asks the database to create. The database call itself is
    replaced by the rows it is given and the id it returns. */
module CreateForm {
  import opened Wrappers
  import opened Text

  /** One submitted question, as far as the handler reads it. */
  datatype RawQuestion = RawQuestion(
    title: string,
    qtype: string,
    isRequired: Option<bool>,
    allowImage: Option<bool>,
    order: Option<int>,
    options: Option<seq<string>>)

  /** The request body: `questions` is None when it is not an array. */
  datatype Body = Body(title: Option<string>, description: Option<string>, questions: Option<seq<RawQuestion>>)

  /** One question row handed to the database. */
  datatype QuestionRow = QuestionRow(
    title: string,
    qtype: string,
    isRequired: bool,
    allowImage: bool,
    order: int,
    options: Option<seq<string>>)

  /** The form row handed to the database, with the id the database assigned. */
  datatype FormRow = FormRow(id: string, title: string, description: Option<string>, creatorId: string, questions: seq<QuestionRow>)

  /** The handler's answers: 401, 400, or 201 with the created form. */
  datatype CreateResult = Unauthorized | BadRequest | Created(form: FormRow)

  function Status(r: CreateResult): nat {
    match r
    case Unauthorized => 401
    case BadRequest => 400
    case Created(_) => 201
  }

  /** `question.order || index`: the supplied order unless it is absent or 0. */
  function RowOrder(order: Option<int>, index: nat): (r: int)
    ensures order.Some? && order.value != 0 ==> r == order.value
    ensures order.None? || order.value == 0 ==> r == index
  {
    if order.Some? && order.value != 0 then order.value else index
  }

  /** `question.options?.length ? question.options : null`. */
  function RowOptions(options: Option<seq<string>>): (r: Option<seq<string>>)
    ensures r.None? <==> options.None? || options.value == []
    ensures r.Some? ==> r == options
  {
    if options.Some? && |options.value| > 0 then options else None
  }

  function QuestionRowOf(q: RawQuestion, index: nat): QuestionRow {
    QuestionRow(
      Trim(q.title),
      q.qtype,
      q.isRequired == Some(true),
      q.allowImage == Some(true),
      RowOrder(q.order, index),
      RowOptions(q.options))
  }

  /** The `questions.map(...)` of the handler. */
  function QuestionRows(qs: seq<RawQuestion>): (r: seq<QuestionRow>)
    ensures |r| == |qs|
    ensures forall i :: 0 <= i < |qs| ==> r[i] == QuestionRowOf(qs[i], i)
  {
    seq(|qs|, i requires 0 <= i < |qs| => QuestionRowOf(qs[i], i))
  }

  /** The handler. `userId` is `session?.user?.id` (None without a session) and
      `newId` is the id the database returns. Without a user id the answer is 401
      and nothing is created; a falsy title or a questions value that is not a
      non-empty array gives 400; otherwise 201 with a form row whose title is
      stored as sent (a blank title is truthy and passes), whose empty or absent
      description is stored as null, and whose question rows follow the
      submission order with trimmed titles and false-defaulted flags. */
  function HandlePost(userId: Option<string>, body: Body, newId: string): (r: CreateResult)
    ensures Status(r) == 401 <==> !Truthy(userId)
    ensures Truthy(userId) ==>
      (Status(r) == 400 <==> !Truthy(body.title) || body.questions.None? || body.questions.value == [])
    ensures r.Created? ==>
      && r.form.id == newId
      && r.form.creatorId == userId.value
      && r.form.title == body.title.value
      && (r.form.description.None? <==> !Truthy(body.description))
      && (r.form.description.Some? ==> r.form.description == body.description)
      && |r.form.questions| == |body.questions.value| > 0
    ensures r.Created? ==> forall i :: 0 <= i < |r.form.questions| ==>
      var row := r.form.questions[i];
      var q := body.questions.value[i];
      && row.title == Trim(q.title)
      && row.qtype == q.qtype
      && row.isRequired == (q.isRequired == Some(true))
      && row.allowImage == (q.allowImage == Some(true))
      && row.order == RowOrder(q.order, i)
      && row.options == RowOptions(q.options)
  {
    if !Truthy(userId) then Unauthorized
    else if !Truthy(body.title) || body.questions.None? || body.questions.value == [] then BadRequest
    else
      Created(FormRow(
        newId,
        body.title.value,
        if Truthy(body.description) then body.description else None,
        userId.value,
        QuestionRows(body.questions.value)))
  }

  /** A title made only of spaces is accepted and stored untrimmed. */
  lemma BlankTitleIsAccepted(q: RawQuestion)
    ensures HandlePost(Some("u"), Body(Some("   "), None, Some([q])), "f").Created?
    ensures HandlePost(Some("u"), Body(Some("   "), None, Some([q])), "f").form.title == "   "
  {
  }

  /** When every supplied order is absent or equal to the position, the rows
      are numbered densely 0..n-1. */
  lemma OrdersFollowPositions(qs: seq<RawQuestion>)
    requires forall i :: 0 <= i < |qs| ==> qs[i].order.None? || qs[i].order == Some(i)
    ensures forall i :: 0 <= i < |qs| ==> QuestionRows(qs)[i].order == i
  {
  }

  /** An explicit order 0 away from the front is replaced by the position, so two
      rows can share an order: [order 1, order 0] is stored as orders 1 and 1. */
  lemma ZeroOrderFallsBackToIndex(a: RawQuestion, b: RawQuestion)
    requires a.order == Some(1) && b.order == Some(0)
    ensures QuestionRows([a, b])[0].order == 1 && QuestionRows([a, b])[1].order == 1
  {
  }
}

=== FILE: dispatch.dfy ===
/** The three `switch` tables over a question's type string: the builder's
    editor (QuestionInput.tsx), the respondent's widget (ResponseInput.tsx) and
    the results page's renderer (ResponseRenderer.tsx). */
module Dispatch {
  import opened Wrappers
  import opened Text
  import opened FormTypes

  /** The builder's per-type editors. */
  datatype Editor =
    | ShortAnswerInput | LongAnswerInput | MultipleChoiceInput | CheckboxInput
    | LocationInput | ImageInput | FileInput | DateInput

  /** The respondent's per-type widgets. `MultipleChoiceResponse` is the
      single-select radio group and `CheckboxResponse` the multi-select. */
  datatype Widget =
    | ShortAnswerResponse | LongAnswerResponse | MultipleChoiceResponse | CheckboxResponse
    | LocationResponse | ImageResponse | DateResponse

  /** The results page's renderers; `Unsupported` is the "not supported" message. */
  datatype Renderer = TextRenderer | DateRenderer | ChoiceRenderer | LocationRenderer | ImageRenderer | Unsupported

  /** `QuestionInput`: exact match on the type string, no lower-casing. */
  function BuilderEditorFor(qtype: string): (r: Option<Editor>)
    ensures r.Some? <==> ParseType(qtype).Some?
    ensures r.Some? ==> r.value == EditorOf(ParseType(qtype).value)
  {
    match qtype
    case "short" => Some(ShortAnswerInput)
    case "long" => Some(LongAnswerInput)
    case "multiple" => Some(MultipleChoiceInput)
    case "checkbox" => Some(CheckboxInput)
    case "location" => Some(LocationInput)
    case "image" => Some(ImageInput)
    case "file" => Some(FileInput)
    case "date" => Some(DateInput)
    case _ => None
  }

  /** `ResponseInput`: the type is lower-cased first; "checkbox" gets the radio
      widget and "multiple" the multi-select; "file" has no widget. */
  function RespondentWidgetFor(qtype: string): (r: Option<Widget>)
    ensures r.Some? <==> ParseType(ToLower(qtype)).Some? && ToLower(qtype) != "file"
  {
    match ToLower(qtype)
    case "short" => Some(ShortAnswerResponse)
    case "long" => Some(LongAnswerResponse)
    case "checkbox" => Some(MultipleChoiceResponse)
    case "multiple" => Some(CheckboxResponse)
    case "location" => Some(LocationResponse)
    case "image" => Some(ImageResponse)
    case "date" => Some(DateResponse)
    case _ => None
  }

  /** `ResponseRenderer`: exact match; short and long share a renderer, as do
      checkbox and multiple; anything else gets the unsupported message. */
  function RendererFor(qtype: string): (r: Renderer)
    ensures r == Unsupported <==> ParseType(qtype).None? || qtype == "file"
    ensures r == ChoiceRenderer <==> IsChoiceName(qtype)
    ensures r == TextRenderer <==> qtype == "short" || qtype == "long"
    ensures r == DateRenderer <==> qtype == "date"
    ensures r == ImageRenderer <==> qtype == "image"
    ensures r == LocationRenderer <==> qtype == "location"
  {
    match qtype
    case "short" => TextRenderer
    case "long" => TextRenderer
    case "date" => DateRenderer
    case "checkbox" => ChoiceRenderer
    case "multiple" => ChoiceRenderer
    case "location" => LocationRenderer
    case "image" => ImageRenderer
    case _ => Unsupported
  }

  /** The editor of each of the eight types, named after it. */
  function EditorOf(t: QuestionType): Editor {
    match t
    case Short => ShortAnswerInput
    case Long => LongAnswerInput
    case Multiple => MultipleChoiceInput
    case Checkbox => CheckboxInput
    case Location => LocationInput
    case Image => ImageInput
    case File => FileInput
    case Date => DateInput
  }

  /** The builder has an editor for exactly the eight type names, a distinct
      one for each, and the one named after the type. */
  lemma BuilderEditorsCoverTypes(s: string)
    ensures BuilderEditorFor(s).Some? <==> ParseType(s).Some?
    ensures ParseType(s).Some? ==> BuilderEditorFor(s) == Some(EditorOf(ParseType(s).value))
  {
  }

  lemma EditorOfInjective(a: QuestionType, b: QuestionType)
    requires EditorOf(a) == EditorOf(b)
    ensures a == b
  {
  }

  /** The builder editor is chosen case-sensitively: "Short" has none. */
  lemma BuilderDispatchIsCaseSensitive()
    ensures BuilderEditorFor("Short").None?
  {
  }

  /** The respondent table depends only on the lower-cased type. */
  lemma RespondentDispatchIgnoresCase(s: string)
    ensures RespondentWidgetFor(s) == RespondentWidgetFor(ToLower(s))
  {
    ToLowerIdempotent(s);
  }

  /** The respondent table, type by type: the five plain types get the widget
      named after them, the two choice types get each other's widget, and a
      file question gets none. */
  lemma RespondentWidgets(t: QuestionType)
    ensures t == Short ==> RespondentWidgetFor(TypeName(t)) == Some(ShortAnswerResponse)
    ensures t == Long ==> RespondentWidgetFor(TypeName(t)) == Some(LongAnswerResponse)
    ensures t == Location ==> RespondentWidgetFor(TypeName(t)) == Some(LocationResponse)
    ensures t == Image ==> RespondentWidgetFor(TypeName(t)) == Some(ImageResponse)
    ensures t == Date ==> RespondentWidgetFor(TypeName(t)) == Some(DateResponse)
    ensures t == Checkbox ==> RespondentWidgetFor(TypeName(t)) == Some(MultipleChoiceResponse)
    ensures t == Multiple ==> RespondentWidgetFor(TypeName(t)) == Some(CheckboxResponse)
    ensures t == File ==> RespondentWidgetFor(TypeName(t)).None?
  {
    TypeNameIsLower(t);
  }

  /** The swap: the builder edits a "checkbox" question with the checkbox editor,
      but the respondent answers it with the radio widget; and the other way
      round for "multiple". */
  lemma ChoiceWidgetsAreSwapped()
    ensures BuilderEditorFor("checkbox") == Some(CheckboxInput)
    ensures RespondentWidgetFor("checkbox") == Some(MultipleChoiceResponse)
    ensures BuilderEditorFor("multiple") == Some(MultipleChoiceInput)
    ensures RespondentWidgetFor("multiple") == Some(CheckboxResponse)
  {
    RespondentWidgets(Checkbox);
    RespondentWidgets(Multiple);
  }

  /** An upper-case type still reaches a respondent widget. */
  lemma UpperCaseTypeHasWidget()
    ensures RespondentWidgetFor("SHORT") == Some(ShortAnswerResponse)
  {
    assert ToLower("SHORT") == "short";
  }

  /** Among the eight types only "file" is unsupported on the results page, and
      it is also the only one without a respondent widget. */
  lemma FileIsTheOnlyUnsupportedType(t: QuestionType)
    ensures RendererFor(TypeName(t)) == Unsupported <==> t == File
    ensures RespondentWidgetFor(TypeName(t)).None? <==> t == File
  {
    RespondentWidgets(t);
  }

  /** Outside the eight names the results page is always unsupported and the
      builder has no editor. */
  lemma UnknownTypeIsUnsupported(s: string)
    requires ParseType(s).None?
    ensures RendererFor(s) == Unsupported
    ensures BuilderEditorFor(s).None?
  {
  }

  /** The choice renderer is used for exactly the two choice type names. */
  lemma ChoiceRendererIffChoiceName(s: string)
    ensures RendererFor(s) == ChoiceRenderer <==> IsChoiceName(s)
  {
  }
}

=== FILE: form_builder.dfy ===
/** src/hooks/useFormBuilder.ts: the question-list updaters the builder hook
    hands to its state setter, and the decision `saveForm` takes before it
    sends anything. */
module FormBuilder {
  import opened Wrappers
  import opened Text
  import opened FormTypes
  import opened FormUtils
  import Seqs

  /** The hook's state: title, description and question list. */
  datatype BuilderState = BuilderState(title: string, description: string, questions: seq<Question>)

  /** One loaded question: type lower-cased, options normalised, all else kept. */
  function LoadQuestion(q: Question): Question {
    q.(qtype := ToLower(q.qtype), options := Some(NormalizeOptions(q.qtype, Declared(q.options))))
  }

  /** The state the hook starts from, given the form being edited (if any). */
  function InitialState(init: Option<FormData>): (r: BuilderState)
    ensures init.None? ==> r == BuilderState("", "", [])
    ensures init.Some? ==>
      && r.title == init.value.title
      && r.description == init.value.description
      && |r.questions| == |init.value.questions|
      && Ids(r.questions) == Ids(init.value.questions)
    ensures forall i :: 0 <= i < |r.questions| ==>
      && IsLower(r.questions[i].qtype)
      && r.questions[i].options.Some?
      && (forall j :: 0 <= j < |r.questions[i].options.value| ==> NonBlank(r.questions[i].options.value[j]))
      && (!IsChoiceName(r.questions[i].qtype) ==> r.questions[i].options == Some([]))
      && r.questions[i].title == init.value.questions[i].title
      && r.questions[i].order == init.value.questions[i].order
    ensures init.Some? ==> forall i :: 0 <= i < |r.questions| ==>
      var q := init.value.questions[i];
      && r.questions[i].qtype == ToLower(q.qtype)
      && r.questions[i].options == Some(NormalizeOptions(q.qtype, Declared(q.options)))
      && r.questions[i].(qtype := q.qtype, options := q.options) == q
  {
    match init
    case None => BuilderState("", "", [])
    case Some(d) =>
      var qs := Seqs.Map(d.questions, LoadQuestion);
      assert forall i :: 0 <= i < |qs| ==> IsLower(qs[i].qtype) by {
        forall i | 0 <= i < |qs| ensures IsLower(qs[i].qtype) {
          ToLowerIdempotent(d.questions[i].qtype);
        }
      }
      BuilderState(d.title, d.description, qs)
  }

  /** Loading a loaded question list again changes nothing. */
  lemma {:induction false} LoadIdempotent(q: Question)
    ensures LoadQuestion(LoadQuestion(q)) == LoadQuestion(q)
  {
    ToLowerIdempotent(q.qtype);
    NormalizeOptionsIdempotent(q.qtype, Declared(q.options));
    assert ToLower(ToLower(q.qtype)) == ToLower(q.qtype);
  }

  /** The question `addQuestion` creates: a short-answer question with an empty
      title, not required, and an empty option list. */
  function NewQuestion(id: string): Question {
    BareQuestion(id, "short", "", false).(options := Some([]))
  }

  /** `addQuestion`, with the random id as a parameter: appends exactly one
      question and leaves the existing ones untouched. */
  function AddQuestion(qs: seq<Question>, freshId: string): (r: seq<Question>)
    ensures |r| == |qs| + 1
    ensures r[..|qs|] == qs
    ensures r[|qs|].id == freshId && r[|qs|].qtype == "short" && r[|qs|].title == ""
    ensures !r[|qs|].isRequired && r[|qs|].options == Some([]) && r[|qs|].allowImage == None
  {
    qs + [NewQuestion(freshId)]
  }

  /** `updateQuestion(id, updates)`: merges the updates into exactly the
      questions carrying that id; the length and every other entry are kept. */
  function UpdateQuestion(qs: seq<Question>, id: string, p: Patch): (r: seq<Question>)
    ensures |r| == |qs|
    ensures forall i :: 0 <= i < |qs| && qs[i].id != id ==> r[i] == qs[i]
    ensures forall i :: 0 <= i < |qs| && qs[i].id == id ==> r[i] == ApplyPatch(qs[i], p)
  {
    Seqs.Map(qs, (q: Question) => if q.id == id then ApplyPatch(q, p) else q)
  }

  /** Applying the same update twice is applying it once, even when the update
      itself renames the matching questions. */
  lemma UpdateQuestionIdempotent(qs: seq<Question>, id: string, p: Patch)
    ensures UpdateQuestion(UpdateQuestion(qs, id, p), id, p) == UpdateQuestion(qs, id, p)
  {
    var once := UpdateQuestion(qs, id, p);
    var twice := UpdateQuestion(once, id, p);
    forall i | 0 <= i < |qs|
      ensures twice[i] == once[i]
    {
      if qs[i].id == id {
        ApplyPatchIdempotent(qs[i], p);
      }
    }
  }

  /** An update that does not set `id` keeps the id list. */
  lemma UpdateQuestionKeepsIds(qs: seq<Question>, id: string, p: Patch)
    requires p.id.None?
    ensures Ids(UpdateQuestion(qs, id, p)) == Ids(qs)
  {
  }

  /** `deleteQuestion(id)`: removes every question carrying the id and keeps the
      others, each as often as before and in their original order. */
  function DeleteQuestion(qs: seq<Question>, id: string): (r: seq<Question>)
    ensures id !in Ids(r)
    ensures Seqs.SubsequenceOf(r, qs)
    ensures forall q :: multiset(r)[q] == if q.id != id then multiset(qs)[q] else 0
  {
    var r := Seqs.Filter(qs, (q: Question) => q.id != id);
    Seqs.FilterIsSubsequence(qs, (q: Question) => q.id != id);
    r
  }

  /** Deleting an id that no question carries changes nothing. */
  lemma {:induction false} DeleteAbsentIsNoop(qs: seq<Question>, id: string)
    requires id !in Ids(qs)
    ensures DeleteQuestion(qs, id) == qs
  {
    Seqs.FilterAllPass(qs, (q: Question) => q.id != id);
  }

  /** `items.findIndex(q => q.id === id)` for an id that occurs. */
  function FirstIndex(qs: seq<Question>, id: string): (k: nat)
    requires id in Ids(qs)
    ensures k < |qs| && qs[k].id == id
    ensures forall j :: 0 <= j < k ==> qs[j].id != id
  {
    if qs[0].id == id then 0 else FirstIndex(qs[1..], id) + 1
  }

  /** `items.map((q, index) => ({ ...q, order: index }))`. */
  function Renumber(qs: seq<Question>): (r: seq<Question>)
    ensures |r| == |qs|
    ensures forall i :: 0 <= i < |qs| ==> r[i] == qs[i].(order := Some(i))
  {
    seq(|qs|, i requires 0 <= i < |qs| => qs[i].(order := Some(i)))
  }

  /** A question with its `order` forgotten, to compare lists up to renumbering. */
  function Unordered(q: Question): Question {
    q.(order := None)
  }

  function UnorderedAll(qs: seq<Question>): seq<Question> {
    Seqs.Map(qs, Unordered)
  }

  /** `handleDragEnd({ active, over })`. Nothing happens when the ids are equal.
      Otherwise the dragged question lands at the position of the one it was
      dropped on, the rest keep their relative order, nothing is lost or
      duplicated, and `order` is rewritten to 0..n-1. Both ids are ids of
      sortable items, that is, of questions in the list. */
  function DragEnd(qs: seq<Question>, activeId: string, overId: string): (r: seq<Question>)
    requires activeId != overId ==> activeId in Ids(qs) && overId in Ids(qs)
    ensures activeId == overId ==> r == qs
    ensures activeId != overId ==>
      && |r| == |qs|
      && (forall i :: 0 <= i < |r| ==> r[i].order == Some(i))
      && multiset(UnorderedAll(r)) == multiset(UnorderedAll(qs))
      && var from := FirstIndex(qs, activeId);
         var to := FirstIndex(qs, overId);
         && UnorderedAll(r)[to] == UnorderedAll(qs)[from]
         && Seqs.RemoveAt(UnorderedAll(r), to) == Seqs.RemoveAt(UnorderedAll(qs), from)
  {
    if activeId == overId then qs
    else
      var from := FirstIndex(qs, activeId);
      var to := FirstIndex(qs, overId);
      DragEndShape(qs, from, to);
      Renumber(Seqs.Move(qs, from, to))
  }

  /** The shape of a renumbered move, in terms of the two positions. */
  lemma DragEndShape(qs: seq<Question>, from: nat, to: nat)
    requires from < |qs| && to < |qs|
    ensures var r := Renumber(Seqs.Move(qs, from, to));
      && |r| == |qs|
      && (forall i :: 0 <= i < |r| ==> r[i].order == Some(i))
      && multiset(UnorderedAll(r)) == multiset(UnorderedAll(qs))
      && UnorderedAll(r)[to] == UnorderedAll(qs)[from]
      && Seqs.RemoveAt(UnorderedAll(r), to) == Seqs.RemoveAt(UnorderedAll(qs), from)
  {
    RenumberedMove(qs, from, to);
    var m := Seqs.Move(UnorderedAll(qs), from, to);
    assert UnorderedAll(Renumber(Seqs.Move(qs, from, to))) == m;
  }

  /** Renumbering after a move differs from the move only in `order`. */
  lemma {:induction false} RenumberedMove(qs: seq<Question>, from: nat, to: nat)
    requires from < |qs| && to < |qs|
    ensures UnorderedAll(Renumber(Seqs.Move(qs, from, to))) == Seqs.Move(UnorderedAll(qs), from, to)
  {
    var moved := Seqs.Move(qs, from, to);
    assert UnorderedAll(Renumber(moved)) == UnorderedAll(moved);
    Seqs.MapMove(qs, from, to, Unordered);
  }

  /** A fresh-list drag leaves the moved question's content intact: it is the
      dragged question, renumbered to its new position. */
  lemma DragEndPlacesDragged(qs: seq<Question>, activeId: string, overId: string)
    requires activeId != overId && activeId in Ids(qs) && overId in Ids(qs)
    ensures var to := FirstIndex(qs, overId);
      DragEnd(qs, activeId, overId)[to] == qs[FirstIndex(qs, activeId)].(order := Some(to))
  {
  }

  /** The HTTP method `saveForm` uses. */
  datatype HttpMethod = Post | Put

  /** What `saveForm` does: nothing (a blank title), or a request with its body. */
  datatype SaveRequest = Blocked | Send(verb: HttpMethod, url: string, body: PreparedForm)

  /** `saveForm`: blocked iff the title is blank after trimming; otherwise a PUT
      to the edit endpoint when the form being edited has an id and a POST to
      the create endpoint when it has none, carrying `prepareFormData` of the
      current state. */
  function SaveForm(s: BuilderState, initialId: Option<string>): (r: SaveRequest)
    ensures r.Blocked? <==> IsBlank(s.title)
    ensures r.Send? ==> (r.verb == Put <==> Truthy(initialId))
    ensures r.Send? && r.verb == Put ==> r.url == "/api/forms/" + initialId.value + "/edit"
    ensures r.Send? && r.verb == Post ==> r.url == "/api/createForms"
    ensures r.Send? ==> r.body == PrepareFormData(FormData(None, s.title, s.description, s.questions))
    ensures r.Send? ==> r.body.title != "" && |r.body.questions| == |s.questions|
  {
    if IsBlank(s.title) then Blocked
    else
      var body := PrepareFormData(FormData(None, s.title, s.description, s.questions));
      if Truthy(initialId) then Send(Put, "/api/forms/" + initialId.value + "/edit", body)
      else Send(Post, "/api/createForms", body)
  }
}

=== FILE: form_responses.dfy ===
/** src/hooks/useFormResponses.ts: the derived values of the results page.
    Dates are abstract: `parseDate` stands for `parseISO` and `sameDay` for
    `isSameDay`. */
module FormResponses {
  import opened Wrappers
  import opened FormTypes
  import Seqs

  /** `responseDates`: one parsed date per response, in response order. */
  function ResponseDates<D>(responses: seq<FormResponse>, parseDate: string -> D): (r: seq<D>)
    ensures |r| == |responses|
    ensures forall i :: 0 <= i < |responses| ==> r[i] == parseDate(responses[i].date)
  {
    Seqs.Map(responses, (resp: FormResponse) => parseDate(resp.date))
  }

  const NoName := "Sem nome"

  /** `getResponseName`: the first question's answer text when the form has a
      question and that text is non-empty, "Sem nome" otherwise. */
  function ResponseName(questions: seq<Question>, response: FormResponse): (r: string)
    ensures r != ""
    ensures questions == [] ==> r == NoName
    ensures questions != [] ==> r == AnswerFor(response, questions[0].id).text.GetOr(NoName) || r == NoName
  {
    if questions == [] then NoName
    else
      var answer := AnswerFor(response, questions[0].id);
      if answer.text.Some? && answer.text.value != "" then answer.text.value else NoName
  }

  /** The default name is shown exactly when there is no first question, or its
      answer has no non-empty text, or that text is itself "Sem nome". */
  lemma ResponseNameDefault(questions: seq<Question>, response: FormResponse)
    ensures ResponseName(questions, response) == NoName <==>
      questions == [] || AnswerFor(response, questions[0].id).text.GetOr("") in {"", NoName}
  {
  }

  /** A response is on the selected day. */
  predicate OnDay<D>(response: FormResponse, day: D, parseDate: string -> D, sameDay: (D, D) -> bool) {
    sameDay(parseDate(response.date), day)
  }

  /** `filteredResponses`: all responses when no day is selected; otherwise the
      responses on that day, in their original order and with their multiplicities. */
  function FilteredResponses<D(!new)>(responses: seq<FormResponse>, selected: Option<D>,
                                     parseDate: string -> D, sameDay: (D, D) -> bool): (r: seq<FormResponse>)
    ensures selected.None? ==> r == responses
    ensures Seqs.SubsequenceOf(r, responses)
    ensures selected.Some? ==> forall x :: x in r <==> x in responses && OnDay(x, selected.value, parseDate, sameDay)
    ensures selected.Some? ==> forall x ::
      multiset(r)[x] == if OnDay(x, selected.value, parseDate, sameDay) then multiset(responses)[x] else 0
  {
    if selected.None? then
      Seqs.FilterAllPass(responses, (resp: FormResponse) => true);
      Seqs.FilterIsSubsequence(responses, (resp: FormResponse) => true);
      responses
    else
      var keep := (resp: FormResponse) => OnDay(resp, selected.value, parseDate, sameDay);
      Seqs.FilterIsSubsequence(responses, keep);
      forall x ensures x in Seqs.Filter(responses, keep) <==> x in responses && keep(x) {
        Seqs.FilterMembership(responses, keep, x);
      }
      Seqs.Filter(responses, keep)
  }

  /** When every response is on the selected day, nothing is filtered out. */
  lemma AllOnDayKeepsAll<D(!new)>(responses: seq<FormResponse>, day: D, parseDate: string -> D, sameDay: (D, D) -> bool)
    requires forall i :: 0 <= i < |responses| ==> OnDay(responses[i], day, parseDate, sameDay)
    ensures FilteredResponses(responses, Some(day), parseDate, sameDay) == responses
  {
    Seqs.FilterAllPass(responses, (resp: FormResponse) => OnDay(resp, day, parseDate, sameDay));
  }

  /** Filtering the filtered list by the same day changes nothing. */
  lemma {:induction false} FilterByDayIdempotent<D(!new)>(responses: seq<FormResponse>, selected: Option<D>,
                                      parseDate: string -> D, sameDay: (D, D) -> bool)
    ensures var once := FilteredResponses(responses, selected, parseDate, sameDay);
      FilteredResponses(once, selected, parseDate, sameDay) == once
  {
    if selected.Some? {
      Seqs.FilterIdempotent(responses, (resp: FormResponse) => OnDay(resp, selected.value, parseDate, sameDay));
    }
  }

  /** A selected day shows some response exactly when one of the parsed
      response dates falls on that day. */
  lemma DayHasResponsesIffSomeDate<D(!new)>(responses: seq<FormResponse>, day: D,
                                          parseDate: string -> D, sameDay: (D, D) -> bool)
    ensures FilteredResponses(responses, Some(day), parseDate, sameDay) != [] <==>
      exists i :: 0 <= i < |responses| && sameDay(ResponseDates(responses, parseDate)[i], day)
  {
    var r := FilteredResponses(responses, Some(day), parseDate, sameDay);
    var dates := ResponseDates(responses, parseDate);
    if r != [] {
      assert r[0] in r;
      var i :| 0 <= i < |responses| && responses[i] == r[0];
      assert sameDay(dates[i], day);
    }
    if i :| 0 <= i < |responses| && sameDay(dates[i], day) {
      assert responses[i] in responses && OnDay(responses[i], day, parseDate, sameDay);
      assert responses[i] in r;
    }
  }
}

=== FILE: form_types.dfy ===
/** The shared data model of src/types/form.ts: the closed set of question
    types, a question, a form and a stored response. */
module FormTypes {
  import opened Wrappers
  import Seqs
  import Text

  /** The eight answer kinds a question may have. */
  datatype QuestionType = Short | Long | Multiple | Checkbox | Location | Image | File | Date

  /** The string each answer kind travels as. */
  function TypeName(t: QuestionType): string {
    match t
    case Short => "short"
    case Long => "long"
    case Multiple => "multiple"
    case Checkbox => "checkbox"
    case Location => "location"
    case Image => "image"
    case File => "file"
    case Date => "date"
  }

  /** Recognises exactly the eight type strings, case-sensitively. */
  function ParseType(s: string): (r: Option<QuestionType>)
    ensures r.Some? ==> TypeName(r.value) == s
  {
    if s == "short" then Some(Short)
    else if s == "long" then Some(Long)
    else if s == "multiple" then Some(Multiple)
    else if s == "checkbox" then Some(Checkbox)
    else if s == "location" then Some(Location)
    else if s == "image" then Some(Image)
    else if s == "file" then Some(File)
    else if s == "date" then Some(Date)
    else None
  }

  /** The type set is closed: every type name parses back to its type, so the
      eight names are pairwise distinct and are the only strings `ParseType` accepts. */
  lemma ParseTypeName(t: QuestionType)
    ensures ParseType(TypeName(t)) == Some(t)
  {
  }

  lemma TypeNameInjective(a: QuestionType, b: QuestionType)
    requires TypeName(a) == TypeName(b)
    ensures a == b
  {
    ParseTypeName(a);
    ParseTypeName(b);
  }

  /** Every type name is already lower case, so lower-casing maps it to itself. */
  lemma TypeNameIsLower(t: QuestionType)
    ensures Text.IsLower(TypeName(t))
  {
  }

  /** The two option-carrying types, by the names the program compares types against. */
  predicate IsChoiceName(t: string) {
    t == "checkbox" || t == "multiple"
  }

  /** A question. The `type` is kept as the string the program carries, since
      parts of the program lower-case it or compare it verbatim; `order` is not
      declared by the interface but is attached at run time by a drag. */
  datatype Question = Question(
    id: string,
    qtype: string,
    title: string,
    isRequired: bool,
    allowImage: Option<bool>,
    options: Option<seq<string>>,
    imageUrl: Option<string>,
    location: Option<string>,
    fileUrl: Option<string>,
    order: Option<int>)

  /** A `Partial<Question>`: each present field overrides the question's. */
  datatype Patch = Patch(
    id: Option<string>,
    qtype: Option<string>,
    title: Option<string>,
    isRequired: Option<bool>,
    allowImage: Option<bool>,
    options: Option<seq<string>>,
    imageUrl: Option<string>,
    location: Option<string>,
    fileUrl: Option<string>)

  function Override<T>(current: T, update: Option<T>): T {
    if update.Some? then update.value else current
  }

  function OverrideOpt<T>(current: Option<T>, update: Option<T>): Option<T> {
    if update.Some? then update else current
  }

  /** `{ ...q, ...updates }`. */
  function ApplyPatch(q: Question, p: Patch): (r: Question)
    ensures r.order == q.order
    ensures p.title.Some? ==> r.title == p.title.value
    ensures p.title.None? ==> r.title == q.title
    ensures r.id == if p.id.Some? then p.id.value else q.id
    ensures r.qtype == if p.qtype.Some? then p.qtype.value else q.qtype
    ensures r.isRequired == if p.isRequired.Some? then p.isRequired.value else q.isRequired
    ensures r.options == if p.options.Some? then p.options else q.options
    ensures r.allowImage == if p.allowImage.Some? then p.allowImage else q.allowImage
    ensures r.imageUrl == if p.imageUrl.Some? then p.imageUrl else q.imageUrl
    ensures r.location == if p.location.Some? then p.location else q.location
    ensures r.fileUrl == if p.fileUrl.Some? then p.fileUrl else q.fileUrl
  {
    Question(
      Override(q.id, p.id),
      Override(q.qtype, p.qtype),
      Override(q.title, p.title),
      Override(q.isRequired, p.isRequired),
      OverrideOpt(q.allowImage, p.allowImage),
      OverrideOpt(q.options, p.options),
      OverrideOpt(q.imageUrl, p.imageUrl),
      OverrideOpt(q.location, p.location),
      OverrideOpt(q.fileUrl, p.fileUrl),
      q.order)
  }

  /** Merging the same update twice is merging it once. */
  lemma ApplyPatchIdempotent(q: Question, p: Patch)
    ensures ApplyPatch(ApplyPatch(q, p), p) == ApplyPatch(q, p)
  {
  }

  /** A question as the builder creates it: only id, type, title and isRequired set. */
  function BareQuestion(id: string, qtype: string, title: string, isRequired: bool): Question {
    Question(id, qtype, title, isRequired, None, None, None, None, None, None)
  }

  /** A form: the id is optional (absent before the first save), the description is not. */
  datatype FormData = FormData(id: Option<string>, title: string, description: string, questions: seq<Question>)

  /** The ids of a question list, in order. */
  function Ids(qs: seq<Question>): (r: seq<string>)
    ensures |r| == |qs|
    ensures forall i :: 0 <= i < |qs| ==> r[i] == qs[i].id
  {
    Seqs.Map(qs, (q: Question) => q.id)
  }

  /** One stored answer: optional text, image URL and location string. */
  datatype AnswerRecord = AnswerRecord(text: Option<string>, image: Option<string>, location: Option<string>)

  const EmptyAnswer := AnswerRecord(None, None, None)

  /** A stored response: its id, its submission date and its answers keyed by question id. */
  datatype FormResponse = FormResponse(id: string, date: string, answers: map<string, AnswerRecord>)

  /** `response.answers[questionId] || {}`. */
  function AnswerFor(r: FormResponse, questionId: string): (a: AnswerRecord)
    ensures questionId !in r.answers ==> a == EmptyAnswer
    ensures questionId in r.answers ==> a == r.answers[questionId]
  {
    if questionId in r.answers then r.answers[questionId] else EmptyAnswer
  }
}

=== FILE: form_utils.dfy ===
/** src/utils/formUtils.ts: option normalisation and the save-payload
    preparation used by the form-builder hook. */
module FormUtils {
  import opened Wrappers
  import opened Text
  import opened FormTypes
  import Seqs

  /** What an `options` value can look like on arrival: absent, an array, a
      `{ set: ... }` wrapper (with an array or something else inside), or any
      other non-array value. */
  datatype RawOptions = Absent | Listed(items: seq<string>) | SetWrapper(inner: Option<seq<string>>) | NotAList

  /** The options a question declares, as a raw value. */
  function Declared(options: Option<seq<string>>): RawOptions {
    if options.Some? then Listed(options.value) else Absent
  }

  /** The array `normalizeOptions` filters: the array itself, the array inside
      a `{ set }` wrapper, or nothing. */
  function CandidateOptions(raw: RawOptions): seq<string> {
    match raw
    case Listed(xs) => xs
    case SetWrapper(Some(xs)) => xs
    case _ => []
  }

  predicate NonBlank(o: string) {
    !IsBlank(o)
  }

  /** `normalizeOptions(question)`: `[]` unless the lower-cased type is a choice
      type; otherwise the non-blank entries of the candidate array, in order and
      not themselves trimmed. */
  function NormalizeOptions(qtype: string, raw: RawOptions): (r: seq<string>)
    ensures !IsChoiceName(ToLower(qtype)) ==> r == []
    ensures forall i :: 0 <= i < |r| ==> NonBlank(r[i])
    ensures Seqs.SubsequenceOf(r, CandidateOptions(raw))
    ensures IsChoiceName(ToLower(qtype)) ==>
      forall o :: multiset(r)[o] == if NonBlank(o) then multiset(CandidateOptions(raw))[o] else 0
  {
    if !IsChoiceName(ToLower(qtype)) then []
    else
      var r := Seqs.Filter(CandidateOptions(raw), NonBlank);
      Seqs.FilterIsSubsequence(CandidateOptions(raw), NonBlank);
      r
  }

  /** Normalising already-normalised options changes nothing. */
  lemma {:induction false} NormalizeOptionsIdempotent(qtype: string, raw: RawOptions)
    ensures NormalizeOptions(qtype, Listed(NormalizeOptions(qtype, raw))) == NormalizeOptions(qtype, raw)
  {
    if IsChoiceName(ToLower(qtype)) {
      Seqs.FilterIdempotent(CandidateOptions(raw), NonBlank);
    }
  }

  /** One question of the prepared payload. */
  datatype PreparedQuestion = PreparedQuestion(
    id: string,
    title: string,
    qtype: string,
    isRequired: bool,
    allowImage: bool,
    order: nat,
    options: Option<seq<string>>)

  /** The payload `prepareFormData` builds; the description is never null here. */
  datatype PreparedForm = PreparedForm(title: string, description: string, questions: seq<PreparedQuestion>)

  /** `question.allowImage || false`. */
  function Flag(b: Option<bool>): bool {
    b == Some(true)
  }

  function PrepareQuestion(q: Question, index: nat): PreparedQuestion {
    var lowered := ToLower(q.qtype);
    PreparedQuestion(
      q.id,
      Trim(q.title),
      lowered,
      q.isRequired,
      Flag(q.allowImage),
      index,
      if IsChoiceName(lowered) then Some(q.options.GetOr([])) else None)
  }

  function PrepareQuestions(qs: seq<Question>): (r: seq<PreparedQuestion>)
    ensures |r| == |qs|
    ensures forall i :: 0 <= i < |qs| ==> r[i] == PrepareQuestion(qs[i], i)
  {
    seq(|qs|, i requires 0 <= i < |qs| => PrepareQuestion(qs[i], i))
  }

  /** `prepareFormData(formData)`: the question list keeps its length, order and
      ids; `order` becomes the position; titles are trimmed, types lower-cased,
      the flags default to false; choice types carry their options unfiltered
      (`[]` when absent) and other types carry none. */
  function PrepareFormData(f: FormData): (r: PreparedForm)
    ensures r.title == Trim(f.title) && r.description == Trim(f.description)
    ensures |r.questions| == |f.questions|
    ensures forall i :: 0 <= i < |f.questions| ==>
      var p := r.questions[i];
      var q := f.questions[i];
      && p.id == q.id
      && p.order == i
      && p.title == Trim(q.title)
      && p.qtype == ToLower(q.qtype)
      && p.isRequired == q.isRequired
      && p.allowImage == (q.allowImage == Some(true))
      && (IsChoiceName(p.qtype) ==> p.options == Some(q.options.GetOr([])))
      && (!IsChoiceName(p.qtype) ==> p.options == None)
  {
    PreparedForm(Trim(f.title), Trim(f.description), PrepareQuestions(f.questions))
  }

  /** Reads a prepared question back as a builder question. */
  function Unprepare(p: PreparedQuestion): Question {
    Question(p.id, p.qtype, p.title, p.isRequired, Some(p.allowImage), p.options,
             None, None, None, Some(p.order))
  }

  function UnprepareForm(f: PreparedForm): FormData {
    FormData(None, f.title, f.description, Seqs.Map(f.questions, Unprepare))
  }

  /** Preparing is a normal form: preparing a prepared payload again gives it back. */
  lemma PrepareFormDataIdempotent(f: FormData)
    ensures PrepareFormData(UnprepareForm(PrepareFormData(f))) == PrepareFormData(f)
  {
    var p := PrepareFormData(f);
    var back := Seqs.Map(p.questions, Unprepare);
    var p2 := PrepareFormData(UnprepareForm(p));
    TrimIdempotent(f.title);
    TrimIdempotent(f.description);
    forall i | 0 <= i < |f.questions|
      ensures p2.questions[i] == p.questions[i]
    {
      assert back[i] == Unprepare(p.questions[i]);
      PrepareQuestionIdempotent(f.questions[i], i);
    }
  }

  lemma PrepareQuestionIdempotent(q: Question, i: nat)
    ensures PrepareQuestion(Unprepare(PrepareQuestion(q, i)), i) == PrepareQuestion(q, i)
  {
    TrimIdempotent(q.title);
    ToLowerIdempotent(q.qtype);
  }

  /** Every prepared title is trimmed and every prepared type is lower-case. */
  lemma PreparedQuestionsAreNormal(f: FormData, i: nat)
    requires i < |f.questions|
    ensures Trim(PrepareFormData(f).questions[i].title) == PrepareFormData(f).questions[i].title
    ensures IsLower(PrepareFormData(f).questions[i].qtype)
  {
    TrimIdempotent(f.questions[i].title);
    ToLowerIdempotent(f.questions[i].qtype);
  }
}

=== FILE: legacy_builder.dfy ===
/** src/app/app/_components/form-builder.tsx: the older builder component.
    Its update, delete and drag updaters are the hook's (FormBuilder) and its
    option edits are OptionEditor's; what differs is modelled here: the new
    question's defaults, the unnormalised initial list, the save payload, the
    missing title gate, and when the image-attachment toggle is offered. */
module LegacyBuilder {
  import opened Wrappers
  import opened Text
  import opened FormTypes
  import opened FormUtils
  import opened FormBuilder
  import opened OptionEditor
  import Seqs

  /** The state the component starts from: the form's questions as given. */
  function LegacyInitialState(init: Option<FormData>): BuilderState {
    match init
    case None => BuilderState("", "", [])
    case Some(d) => BuilderState(d.title, d.description, d.questions)
  }

  /** The hook's initial state is the component's with every question loaded
      (type lower-cased, options normalised); nothing else differs. */
  lemma InitialStatesDifferByLoading(init: Option<FormData>)
    ensures InitialState(init).title == LegacyInitialState(init).title
    ensures InitialState(init).description == LegacyInitialState(init).description
    ensures InitialState(init).questions == Seqs.Map(LegacyInitialState(init).questions, LoadQuestion)
  {
  }

  /** The question this component's `addQuestion` creates: short, empty title,
      not required, image attachment off, and no option list. */
  function LegacyNewQuestion(id: string): Question {
    BareQuestion(id, "short", "", false).(allowImage := Some(false))
  }

  function LegacyAddQuestion(qs: seq<Question>, freshId: string): (r: seq<Question>)
    ensures |r| == |qs| + 1
    ensures r[..|qs|] == qs
    ensures r[|qs|].id == freshId && r[|qs|].qtype == "short" && r[|qs|].title == ""
    ensures !r[|qs|].isRequired && r[|qs|].allowImage == Some(false) && r[|qs|].options == None
  {
    qs + [LegacyNewQuestion(freshId)]
  }

  /** The two `addQuestion`s differ only in the defaults of `allowImage` and `options`. */
  lemma AddQuestionDefaultsDiffer(qs: seq<Question>, id: string)
    ensures var n := |qs|;
      LegacyAddQuestion(qs, id)[n] == AddQuestion(qs, id)[n].(allowImage := Some(false), options := None)
    ensures LegacyAddQuestion(qs, id)[..|qs|] == AddQuestion(qs, id)[..|qs|]
  {
  }

  /** One question of this component's save payload. */
  datatype LegacyQuestion = LegacyQuestion(
    id: string,
    title: string,
    qtype: string,
    isRequired: bool,
    allowImage: bool,
    order: nat,
    options: seq<string>)

  /** This component's save payload; a blank description is sent as null. */
  datatype LegacyForm = LegacyForm(title: string, description: Option<string>, questions: seq<LegacyQuestion>)

  function LegacyQuestionOf(q: Question, index: nat): LegacyQuestion {
    LegacyQuestion(q.id, Trim(q.title), q.qtype, q.isRequired, Flag(q.allowImage), index, OptionsOrEmpty(q.options))
  }

  /** The `formData` `saveForm` builds: trimmed title, trimmed description or
      null when that is empty, and per question its id, trimmed title, type as
      it is (not lower-cased), false-defaulted flags, `order` equal to the
      position and options defaulting to `[]` for every type. */
  function LegacyPayload(s: BuilderState): (r: LegacyForm)
    ensures r.title == Trim(s.title)
    ensures r.description.None? <==> Trim(s.description) == ""
    ensures r.description.Some? ==> r.description.value == Trim(s.description)
    ensures |r.questions| == |s.questions|
    ensures forall i :: 0 <= i < |s.questions| ==>
      var p := r.questions[i];
      var q := s.questions[i];
      && p.id == q.id && p.order == i && p.title == Trim(q.title) && p.qtype == q.qtype
      && p.isRequired == q.isRequired && p.allowImage == (q.allowImage == Some(true))
      && p.options == OptionsOrEmpty(q.options)
  {
    var d := Trim(s.description);
    LegacyForm(
      Trim(s.title),
      if d == "" then None else Some(d),
      seq(|s.questions|, i requires 0 <= i < |s.questions| => LegacyQuestionOf(s.questions[i], i)))
  }

  /** The legacy payload and `prepareFormData` agree on a question whose type is
      already a lower-case choice type; for a lower-case non-choice type they
      differ only in `options`, which the legacy payload sends as a list. */
  lemma PayloadsAgreeOnNormalQuestions(s: BuilderState, i: nat)
    requires i < |s.questions| && IsLower(s.questions[i].qtype)
    ensures var l := LegacyPayload(s).questions[i];
      var p := PrepareFormData(FormData(None, s.title, s.description, s.questions)).questions[i];
      && l.id == p.id && l.title == p.title && l.qtype == p.qtype && l.order == p.order
      && l.isRequired == p.isRequired && l.allowImage == p.allowImage
      && (IsChoiceName(l.qtype) ==> p.options == Some(l.options))
      && (!IsChoiceName(l.qtype) ==> p.options == None)
  {
  }

  /** A request of this component's `saveForm`: always sent, with no title check. */
  datatype LegacyRequest = LegacyRequest(verb: HttpMethod, url: string, body: LegacyForm)

  /** `saveForm`: PUT to the edit endpoint when the edited form has an id,
      POST to the create endpoint otherwise, whatever the title. */
  function LegacySave(s: BuilderState, initialId: Option<string>): (r: LegacyRequest)
    ensures r.verb == Put <==> Truthy(initialId)
    ensures r.verb == Put ==> r.url == "/api/forms/" + initialId.value + "/edit"
    ensures r.verb == Post ==> r.url == "/api/createForms"
    ensures r.body == LegacyPayload(s)
  {
    if Truthy(initialId) then LegacyRequest(Put, "/api/forms/" + initialId.value + "/edit", LegacyPayload(s))
    else LegacyRequest(Post, "/api/createForms", LegacyPayload(s))
  }

  /** The two `saveForm`s choose endpoint and method alike; only the hook
      refuses a blank title. */
  lemma SavesChooseSameEndpoint(s: BuilderState, initialId: Option<string>)
    ensures SaveForm(s, initialId).Send? ==>
      SaveForm(s, initialId).verb == LegacySave(s, initialId).verb
      && SaveForm(s, initialId).url == LegacySave(s, initialId).url
    ensures SaveForm(s, initialId).Blocked? <==> Trim(LegacySave(s, initialId).body.title) == ""
  {
    var hook := SaveForm(s, initialId);
    var legacy := LegacySave(s, initialId);
    var t := Trim(s.title);
    assert legacy.body.title == t by {
      assert legacy.body == LegacyPayload(s);
    }
    TrimIdempotent(s.title);
    assert hook.Blocked? <==> Trim(t) == "";
  }

  /** The image-attachment checkbox is shown for every type string except
      file, image, multiple, checkbox and date (compared verbatim). */
  predicate ImageToggleVisible(qtype: string) {
    qtype != "file" && qtype != "image" && qtype != "multiple" && qtype != "checkbox" && qtype != "date"
  }

  /** Among the eight types the toggle is offered exactly for short, long and location. */
  lemma ImageToggleTypes(t: QuestionType)
    ensures ImageToggleVisible(TypeName(t)) <==> t in {Short, Long, Location}
  {
  }

  /** The comparison is case-sensitive: an upper-case "CHECKBOX" does get the toggle. */
  lemma ImageToggleIsCaseSensitive()
    ensures ImageToggleVisible("CHECKBOX")
  {
  }

  /** An option edit is an `updateQuestion` that replaces only the options of
      the edited question. */
  lemma OptionEditTouchesOnlyOptions(qs: seq<Question>, id: string, options: seq<string>)
    ensures var r := UpdateQuestion(qs, id, OptionsPatch(options));
      && |r| == |qs|
      && forall i :: 0 <= i < |qs| ==>
        r[i] == if qs[i].id == id then qs[i].(options := Some(options)) else qs[i]
  {
  }
}

=== FILE: middleware.dfy ===
/** src/middleware.ts: whether a page request passes or is sent to the login
    page. A request is reduced to its path and the names of its cookies. */
module Middleware {
  import opened Text

  datatype Decision = Next | RedirectHome

  /** The session cookie the middleware looks for, which depends on whether the
      app runs in production. */
  function SessionCookie(production: bool): string {
    if production then "__Secure-authjs.session-token" else "authjs.session-token"
  }

  /** The public pages: respond pages under "/app/forms", and, since `&&`
      binds tighter than `||`, every path ending in "/success". */
  predicate IsPublic(path: string) {
    (StartsWith(path, "/app/forms") && Contains(path, "/responder")) || EndsWith(path, "/success")
  }

  /** `middleware`: public pages pass; otherwise a path under the "/app" prefix
      without the session cookie is redirected to "/", and anything else passes. */
  function Decide(path: string, cookies: set<string>, production: bool): (r: Decision)
    ensures r == RedirectHome <==> !IsPublic(path) && StartsWith(path, "/app") && SessionCookie(production) !in cookies
    ensures r == RedirectHome ==> !EndsWith(path, "/success")
  {
    if IsPublic(path) then Next
    else if StartsWith(path, "/app") && SessionCookie(production) !in cookies then RedirectHome
    else Next
  }

  /** A request carrying the session cookie always passes. */
  lemma SessionAlwaysPasses(path: string, cookies: set<string>, production: bool)
    requires SessionCookie(production) in cookies
    ensures Decide(path, cookies, production) == Next
  {
  }

  /** A path outside the "/app" prefix always passes. */
  lemma OutsideAppPasses(path: string, cookies: set<string>, production: bool)
    requires !StartsWith(path, "/app")
    ensures Decide(path, cookies, production) == Next
  {
  }

  /** Any path ending in "/success" passes without a session, whatever its prefix. */
  lemma SuccessPagesArePublic(path: string, production: bool)
    requires EndsWith(path, "/success")
    ensures Decide(path, {}, production) == Next
  {
  }

  /** A respond page passes without a session. */
  lemma RespondPageIsPublic(production: bool)
    ensures Decide("/app/forms/f1/responder", {}, production) == Next
  {
    var path := "/app/forms/f1/responder";
    assert path[..10] == "/app/forms";
    assert path[13..23] == "/responder";
    assert OccursAt(path, "/responder", 13);
  }

  /** The dashboard is guarded, and so is "/application": the prefix test is a
      plain prefix match, not a path-segment match. */
  lemma AppPrefixIsGuarded(production: bool)
    ensures Decide("/app", {}, production) == RedirectHome
    ensures Decide("/application", {}, production) == RedirectHome
  {
    var path := "/application";
    assert path[..4] == "/app";
    assert path[4] == 'l';
    assert path[4..] != "/success";
    assert !StartsWith(path, "/app/forms");
  }

  /** The two environments use different cookies: the development cookie does
      not open a production "/app" page. */
  lemma ProductionIgnoresDevelopmentCookie()
    ensures Decide("/app", {SessionCookie(false)}, true) == RedirectHome
  {
  }
}

=== FILE: option_editor.dfy ===
/** src/app/app/_components/form-builder/QuestionInputs/CheckboxInput.tsx:
    editing the option list of a choice question. The legacy builder edits
    options the same way except that it removes with `splice`; both are here. */
module OptionEditor {
  import opened Wrappers
  import opened Text
  import opened FormTypes
  import Seqs

  /** `question.options || []`. */
  function OptionsOrEmpty(options: Option<seq<string>>): (r: seq<string>)
    ensures options.None? ==> r == []
    ensures options.Some? ==> r == options.value
  {
    options.GetOr([])
  }

  /** The label of the n-th default option, "Opção n". */
  function OptionLabel(n: nat): string {
    "Opção " + NatToString(n)
  }

  /** Distinct positions get distinct default labels. */
  lemma OptionLabelInjective(a: nat, b: nat)
    requires OptionLabel(a) == OptionLabel(b)
    ensures a == b
  {
    var p := "Opção ";
    assert OptionLabel(a)[|p|..] == NatToString(a);
    assert OptionLabel(b)[|p|..] == NatToString(b);
    NatToStringInjective(a, b);
  }

  /** `addOption`: the list grows by one, the existing options are kept as they
      were, and the new last entry is labelled with its 1-based position. */
  function AddOption(options: seq<string>): (r: seq<string>)
    ensures |r| == |options| + 1
    ensures r[..|options|] == options
    ensures r[|options|] == OptionLabel(|r|)
  {
    options + [OptionLabel(|options| + 1)]
  }

  /** `updateOption(index, value)` for an index of the rendered list: the length
      is kept and only that position changes. */
  function UpdateOption(options: seq<string>, index: nat, value: string): (r: seq<string>)
    requires index < |options|
    ensures |r| == |options|
    ensures r[index] == value
    ensures forall j :: 0 <= j < |options| && j != index ==> r[j] == options[j]
  {
    options[index := value]
  }

  /** `removeOption(index)`, which the checkbox editor writes as
      `options.filter((_, i) => i !== index)`: exactly that position is dropped
      and the other options keep their order; an index past the end removes nothing. */
  function RemoveOption(options: seq<string>, index: nat): (r: seq<string>)
    ensures index < |options| ==> |r| == |options| - 1
    ensures index >= |options| ==> r == options
    ensures forall j :: 0 <= j < index && j < |r| ==> r[j] == options[j]
    ensures forall j :: index <= j < |r| ==> r[j] == options[j + 1]
  {
    Seqs.DropIndexIsRemoveAt(options, index, 0);
    Seqs.DropIndex(options, index, 0)
  }

  /** The legacy builder's removal: `newOptions.splice(index, 1)`. */
  function SpliceOption(options: seq<string>, index: nat): seq<string> {
    Seqs.RemoveAt(options, index)
  }

  /** Both removal styles give the same list for every index. */
  lemma RemoveOptionMatchesSplice(options: seq<string>, index: nat)
    ensures RemoveOption(options, index) == SpliceOption(options, index)
  {
  }

  /** The update the editor hands to `onUpdate(question.id, ...)`. */
  function OptionsPatch(options: seq<string>): Patch {
    Patch(None, None, None, None, None, Some(options), None, None, None)
  }

  /** The default label is not fresh: removing the first of two default options
      and adding one produces a second "Opção 2". */
  lemma RemoveThenAddRepeatsLabel()
    ensures AddOption(RemoveOption([OptionLabel(1), OptionLabel(2)], 0)) == [OptionLabel(2), OptionLabel(2)]
  {
    var r := RemoveOption([OptionLabel(1), OptionLabel(2)], 0);
    assert r == [OptionLabel(2)];
  }
}

=== FILE: respond_form.dfy ===
/** src/hooks/useRespondForm.ts: the respondent side. Option normalisation when
    the form is fetched, the answer and staged-image maps, the required-field
    gate, and the multipart payload `handleSubmit` builds. */
module RespondForm {
  import opened Wrappers
  import opened Text
  import opened FormTypes
  import opened FormUtils
  import Seqs

  /** A value a respondent widget reports: text (short, long, date and the
      single-select radio), a selection list (the multi-select), or coordinates. */
  datatype ResponseValue = TextValue(text: string) | Selection(items: seq<string>) | Coords(latitude: real, longitude: real)

  /** A staged image file: its name and MIME type. */
  datatype StagedFile = StagedFile(name: string, mime: string)

  /** Fetch-time options: `[]` for non-choice types; for choice types the
      non-blank entries of the array, or `[]` when the value is not an array
      (a `{ set }` wrapper is not unwrapped here). */
  function FetchOptions(qtype: string, raw: RawOptions): (r: seq<string>)
    ensures !IsChoiceName(ToLower(qtype)) ==> r == []
    ensures !raw.Listed? ==> r == []
    ensures raw.Listed? ==> r == NormalizeOptions(qtype, raw)
  {
    if IsChoiceName(ToLower(qtype)) && raw.Listed? then Seqs.Filter(raw.items, NonBlank) else []
  }

  /** The fetch path and `normalizeOptions` agree on everything except a
      `{ set }` wrapper holding an array, which only the latter unwraps. */
  lemma FetchAgreesWithNormalize(qtype: string, raw: RawOptions)
    ensures !raw.SetWrapper? ==> FetchOptions(qtype, raw) == NormalizeOptions(qtype, raw)
    ensures FetchOptions("checkbox", SetWrapper(Some(["a"]))) == []
    ensures NormalizeOptions("checkbox", SetWrapper(Some(["a"]))) == ["a"]
  {
    var a := Seqs.Filter(["a"], NonBlank);
    assert NonBlank("a");
    assert a == ["a"];
  }

  /** A fetched question: type lower-cased, options normalised as above. */
  function FetchQuestion(q: Question): Question {
    q.(qtype := ToLower(q.qtype), options := Some(FetchOptions(q.qtype, Declared(q.options))))
  }

  /** Every fetched question has a lower-case type and only non-blank options,
      and only a choice type has any. */
  lemma FetchedQuestionIsNormal(q: Question)
    ensures IsLower(FetchQuestion(q).qtype)
    ensures forall j :: 0 <= j < |FetchQuestion(q).options.value| ==> NonBlank(FetchQuestion(q).options.value[j])
    ensures !IsChoiceName(FetchQuestion(q).qtype) ==> FetchQuestion(q).options == Some([])
  {
    ToLowerIdempotent(q.qtype);
  }

  /** `handleInputChange(questionId, value)`: only that question's answer changes. */
  function HandleInputChange(responses: map<string, ResponseValue>, questionId: string, value: ResponseValue)
    : (r: map<string, ResponseValue>)
    ensures questionId in r && r[questionId] == value
    ensures r.Keys == responses.Keys + {questionId}
    ensures forall k :: k in responses && k != questionId ==> r[k] == responses[k]
  {
    responses[questionId := value]
  }

  /** `removeImage(questionId)`: only that question's staged image goes. */
  function RemoveImage(images: map<string, StagedFile>, questionId: string): (r: map<string, StagedFile>)
    ensures r.Keys == images.Keys - {questionId}
    ensures forall k :: k in r ==> r[k] == images[k]
  {
    images - {questionId}
  }

  /** Truthiness of `responses[id]`: absent and `""` are falsy; any list
      (even an empty one) and any coordinates object are truthy. */
  predicate HasResponse(responses: map<string, ResponseValue>, id: string) {
    id in responses &&
    match responses[id]
    case TextValue(t) => t != ""
    case Selection(_) => true
    case Coords(_, _) => true
  }

  /** A question passes the gate when it is optional, answered, or has a staged image. */
  predicate Satisfied(q: Question, responses: map<string, ResponseValue>, images: map<string, StagedFile>) {
    !q.isRequired || HasResponse(responses, q.id) || q.id in images
  }

  /** The position of the first question that fails the gate, scanning in form order. */
  function FirstMissing(qs: seq<Question>, responses: map<string, ResponseValue>, images: map<string, StagedFile>)
    : (r: Option<nat>)
    ensures r.None? <==> forall i :: 0 <= i < |qs| ==> Satisfied(qs[i], responses, images)
    ensures r.Some? ==> r.value < |qs| && !Satisfied(qs[r.value], responses, images)
    ensures r.Some? ==> forall j :: 0 <= j < r.value ==> Satisfied(qs[j], responses, images)
  {
    if qs == [] then None
    else if !Satisfied(qs[0], responses, images) then Some(0)
    else
      match FirstMissing(qs[1..], responses, images)
      case None => None
      case Some(k) => Some(k + 1)
  }

  /** The `for (const q of formData.questions)` loop of `handleSubmit`: it stops
      at the first required question with neither a truthy answer nor a staged
      image, and reports where it stopped. */
  method RequiredGate(qs: seq<Question>, responses: map<string, ResponseValue>, images: map<string, StagedFile>)
    returns (missing: Option<nat>)
    ensures missing == FirstMissing(qs, responses, images)
    ensures missing.Some? ==> missing.value < |qs| && qs[missing.value].isRequired
  {
    var i := 0;
    while i < |qs|
      invariant 0 <= i <= |qs|
      invariant forall j :: 0 <= j < i ==> Satisfied(qs[j], responses, images)
    {
      var q := qs[i];
      if q.isRequired && !HasResponse(responses, q.id) && q.id !in images {
        return Some(i);
      }
      i := i + 1;
    }
    return None;
  }

  /** One entry of the `responses` JSON part. */
  datatype PayloadEntry = PayloadEntry(text: Option<ResponseValue>, latitude: Option<real>, longitude: Option<real>)

  /** `{ text: r ?? null, latitude: r?.latitude ?? null, longitude: r?.longitude ?? null }`. */
  function EntryFor(responses: map<string, ResponseValue>, id: string): (e: PayloadEntry)
    ensures id !in responses ==> e == PayloadEntry(None, None, None)
    ensures id in responses ==> e.text == Some(responses[id])
    ensures id in responses && responses[id].Coords? ==>
      e.latitude == Some(responses[id].latitude) && e.longitude == Some(responses[id].longitude)
    ensures !(id in responses && responses[id].Coords?) ==> e.latitude == None && e.longitude == None
  {
    if id !in responses then PayloadEntry(None, None, None)
    else
      match responses[id]
      case Coords(lat, lng) => PayloadEntry(Some(responses[id]), Some(lat), Some(lng))
      case _ => PayloadEntry(Some(responses[id]), None, None)
  }

  /** The `formData.questions.reduce(...)`: one entry per question id. */
  function ResponsesPart(qs: seq<Question>, responses: map<string, ResponseValue>): (r: map<string, PayloadEntry>)
    ensures r.Keys == set i | 0 <= i < |qs| :: qs[i].id
    ensures forall id :: id in r ==> r[id] == EntryFor(responses, id)
  {
    if qs == [] then map[]
    else
      var prev := ResponsesPart(qs[..|qs| - 1], responses);
      assert forall i :: 0 <= i < |qs| - 1 ==> qs[..|qs| - 1][i] == qs[i];
      prev[qs[|qs| - 1].id := EntryFor(responses, qs[|qs| - 1].id)]
  }

  /** The name of the multipart part carrying a question's image. */
  function PartName(id: string): string {
    "image-" + id
  }

  lemma PartNameInjective(a: string, b: string)
    requires PartName(a) == PartName(b)
    ensures a == b
  {
    assert a == PartName(a)[6..];
    assert b == PartName(b)[6..];
  }

  /** The staged image renamed `{id}-{timestamp}.{ext}`, `ext` being the text
      after the last dot of the original name (all of it when there is no dot). */
  function RenameImage(id: string, f: StagedFile, timestamp: nat): (r: StagedFile)
    ensures r.mime == f.mime
    ensures StartsWith(r.name, id + "-" + NatToString(timestamp) + ".")
    ensures EndsWith(r.name, "." + LastSegment(f.name, '.'))
    ensures |r.name| == |id| + 1 + |NatToString(timestamp)| + 1 + |LastSegment(f.name, '.')|
  {
    var ext := LastSegment(f.name, '.');
    var head := id + "-" + NatToString(timestamp);
    DotJoinAffixes(head, ext);
    StagedFile(head + "." + ext, f.mime)
  }

  /** The renamed file has the original's extension: reading the text after its
      last dot gives back the original's, whatever dots the id contains. */
  lemma {:induction false} RenameKeepsExtension(id: string, f: StagedFile, timestamp: nat)
    ensures LastSegment(RenameImage(id, f, timestamp).name, '.') == LastSegment(f.name, '.')
  {
    var ext := LastSegment(f.name, '.');
    var head := id + "-" + NatToString(timestamp);
    LastSegmentOfJoin(head, '.', ext);
    assert head + "." + ext == head + ['.'] + ext;
  }

  /** The image parts, keyed by question id (the part of id `k` is named
      `PartName(k)`); `stamp` stands for the clock read for each file. */
  function ImageParts(images: map<string, StagedFile>, stamp: string -> nat): (r: map<string, StagedFile>)
    ensures r.Keys == images.Keys
    ensures forall k :: k in r ==> r[k] == RenameImage(k, images[k], stamp(k))
  {
    map k | k in images :: RenameImage(k, images[k], stamp(k))
  }

  /** What `handleSubmit` does: stop at a required question (naming it), or
      send the responses part and the image parts. */
  datatype Submission =
    | Rejected(questionTitle: string)
    | Submitted(responses: map<string, PayloadEntry>, images: map<string, StagedFile>)

  /** `handleSubmit`: nothing is sent when some question fails the gate, and then
      the first failing question in form order is the one reported; otherwise
      every question gets an entry and every staged image a renamed part. */
  function HandleSubmit(qs: seq<Question>, responses: map<string, ResponseValue>,
                        images: map<string, StagedFile>, stamp: string -> nat): (r: Submission)
    ensures r.Rejected? <==> exists i :: 0 <= i < |qs| && !Satisfied(qs[i], responses, images)
    ensures r.Rejected? ==> exists k ::
      && 0 <= k < |qs|
      && qs[k].isRequired
      && r.questionTitle == qs[k].title
      && !Satisfied(qs[k], responses, images)
      && forall j :: 0 <= j < k ==> Satisfied(qs[j], responses, images)
    ensures r.Submitted? ==> r.responses.Keys == (set i | 0 <= i < |qs| :: qs[i].id)
    ensures r.Submitted? ==> r.images.Keys == images.Keys
    ensures r.Submitted? ==> forall id :: id in r.responses ==> r.responses[id] == EntryFor(responses, id)
    ensures r.Submitted? ==> forall k :: k in r.images ==> r.images[k] == RenameImage(k, images[k], stamp(k))
  {
    match FirstMissing(qs, responses, images)
    case Some(k) => Rejected(qs[k].title)
    case None => Submitted(ResponsesPart(qs, responses), ImageParts(images, stamp))
  }

  /** A staged image alone satisfies a required question, an empty string does
      not, and an empty selection does. */
  lemma GateTruthiness(q: Question, images: map<string, StagedFile>, f: StagedFile)
    requires q.isRequired && q.id !in images
    ensures Satisfied(q, map[], images[q.id := f])
    ensures !Satisfied(q, map[q.id := TextValue("")], images)
    ensures Satisfied(q, map[q.id := Selection([])], images)
  {
  }
}

=== FILE: save_to_create.dfy ===
/** How the two builders' save payloads fare at the create endpoint: the JSON
    body each sends, read back as the route handler's input. */
module SaveToCreate {
  import opened Wrappers
  import opened Text
  import opened FormTypes
  import opened FormUtils
  import opened FormBuilder
  import opened LegacyBuilder
  import opened CreateForm
  import opened OptionEditor
  import Seqs

  function PreparedToRaw(q: PreparedQuestion): RawQuestion {
    RawQuestion(q.title, q.qtype, Some(q.isRequired), Some(q.allowImage), Some(q.order), q.options)
  }

  /** The body the hook's POST carries (an undefined `options` is dropped by JSON). */
  function PreparedBody(p: PreparedForm): Body {
    Body(Some(p.title), Some(p.description), Some(Seqs.Map(p.questions, PreparedToRaw)))
  }

  function LegacyToRaw(q: LegacyQuestion): RawQuestion {
    RawQuestion(q.title, q.qtype, Some(q.isRequired), Some(q.allowImage), Some(q.order), Some(q.options))
  }

  /** The body the legacy component's POST carries. */
  function LegacyBody(f: LegacyForm): Body {
    Body(Some(f.title), f.description, Some(Seqs.Map(f.questions, LegacyToRaw)))
  }

  /** A hook save of a new, non-empty form by a signed-in user is created: the
      stored title is trimmed, a blank description becomes null, and the rows
      keep the builder's order with `order` 0..n-1, trimmed titles and
      lower-cased types. */
  lemma HookSaveIsCreated(s: BuilderState, userId: string, newId: string)
    requires !IsBlank(s.title) && |s.questions| > 0 && userId != ""
    ensures var body := SaveForm(s, None).body;
      var r := HandlePost(Some(userId), PreparedBody(body), newId);
      && r.Created?
      && r.form.title == Trim(s.title)
      && (r.form.description.None? <==> Trim(s.description) == "")
      && |r.form.questions| == |s.questions|
      && forall i :: 0 <= i < |s.questions| ==>
        && r.form.questions[i].order == i
        && r.form.questions[i].title == Trim(s.questions[i].title)
        && r.form.questions[i].qtype == ToLower(s.questions[i].qtype)
  {
    var body := SaveForm(s, None).body;
    var raws := Seqs.Map(body.questions, PreparedToRaw);
    var r := HandlePost(Some(userId), PreparedBody(body), newId);
    assert r.Created?;
    forall i | 0 <= i < |s.questions|
      ensures r.form.questions[i].order == i
      ensures r.form.questions[i].title == Trim(s.questions[i].title)
    {
      assert raws[i] == PreparedToRaw(body.questions[i]);
      TrimIdempotent(s.questions[i].title);
    }
  }

  /** A hook save of a form without questions reaches the route and is refused with 400. */
  lemma HookSaveOfEmptyFormIsRefused(s: BuilderState, userId: string, newId: string)
    requires !IsBlank(s.title) && s.questions == [] && userId != ""
    ensures HandlePost(Some(userId), PreparedBody(SaveForm(s, None).body), newId) == BadRequest
  {
  }

  /** The legacy component sends blank titles, and the route refuses them with
      400 because the trimmed title is empty: the hook's client-side gate and
      the route agree on which titles are acceptable. */
  lemma LegacyBlankTitleIsRefused(s: BuilderState, userId: string, newId: string)
    requires IsBlank(s.title) && userId != ""
    ensures HandlePost(Some(userId), LegacyBody(LegacySave(s, None).body), newId) == BadRequest
  {
  }

  /** In the legacy payload every question carries a list, so the route stores
      null options exactly for questions whose list is absent or empty. */
  lemma LegacyRowsNullOptions(s: BuilderState, userId: string, newId: string, i: nat)
    requires !IsBlank(s.title) && i < |s.questions| && userId != ""
    ensures var r := HandlePost(Some(userId), LegacyBody(LegacySave(s, None).body), newId);
      r.Created? && (r.form.questions[i].options.None? <==> OptionsOrEmpty(s.questions[i].options) == [])
  {
    var body := LegacySave(s, None).body;
    var raws := Seqs.Map(body.questions, LegacyToRaw);
    assert raws[i] == LegacyToRaw(body.questions[i]);
  }
}

=== FILE: seqs.dfy ===
/** The array operations the form logic is built from: `filter`, `map`,
    `splice(i, 1)`, the index-based `filter((_, j) => j !== i)` and
    `arrayMove`, together with the order-preservation facts about them. */
module Seqs {

  /** `a` can be obtained from `b` by deleting elements: `b`'s order is kept. */
  predicate SubsequenceOf<T(==)>(a: seq<T>, b: seq<T>)
    decreases |b|
  {
    if a == [] then true
    else if b == [] then false
    else if a[0] == b[0] then SubsequenceOf(a[1..], b[1..])
    else SubsequenceOf(a, b[1..])
  }

  /** `s.filter(p)`: exactly the occurrences of elements satisfying `p`. */
  function Filter<T(!new)>(s: seq<T>, p: T -> bool): (r: seq<T>)
    ensures |r| <= |s|
    ensures forall i :: 0 <= i < |r| ==> p(r[i])
    ensures forall x :: multiset(r)[x] == if p(x) then multiset(s)[x] else 0
  {
    if s == [] then []
    else
      assert s == [s[0]] + s[1..];
      (if p(s[0]) then [s[0]] else []) + Filter(s[1..], p)
  }

  lemma FilterMembership<T(!new)>(s: seq<T>, p: T -> bool, x: T)
    ensures x in Filter(s, p) <==> x in s && p(x)
  {
    assert x in Filter(s, p) <==> multiset(Filter(s, p))[x] > 0;
    assert x in s <==> multiset(s)[x] > 0;
  }

  /** Filtering keeps the survivors in their original order. */
  lemma {:induction false} FilterIsSubsequence<T(!new)>(s: seq<T>, p: T -> bool)
    ensures SubsequenceOf(Filter(s, p), s)
  {
    if s != [] {
      var r := Filter(s, p);
      var rest := Filter(s[1..], p);
      FilterIsSubsequence(s[1..], p);
      if p(s[0]) {
        assert r == [s[0]] + rest;
        assert r[0] == s[0] && r[1..] == rest;
      } else {
        assert r == rest;
        if rest != [] {
          assert p(rest[0]);
          assert rest[0] != s[0];
        }
      }
    }
  }

  /** Filtering a list whose every element already passes changes nothing. */
  lemma {:induction false} FilterAllPass<T(!new)>(s: seq<T>, p: T -> bool)
    requires forall i :: 0 <= i < |s| ==> p(s[i])
    ensures Filter(s, p) == s
  {
    if s != [] {
      FilterAllPass(s[1..], p);
    }
  }

  /** Hence filtering is idempotent. */
  lemma {:induction false} FilterIdempotent<T(!new)>(s: seq<T>, p: T -> bool)
    ensures Filter(Filter(s, p), p) == Filter(s, p)
  {
    FilterAllPass(Filter(s, p), p);
  }

  /** `s.map(f)`. */
  function Map<T, U>(s: seq<T>, f: T -> U): (r: seq<U>)
    ensures |r| == |s|
    ensures forall i :: 0 <= i < |s| ==> r[i] == f(s[i])
  {
    seq(|s|, i requires 0 <= i < |s| => f(s[i]))
  }

  /** `copy.splice(i, 1)` for a non-negative index: drops position `i` if there is one. */
  function RemoveAt<T>(s: seq<T>, i: nat): (r: seq<T>)
    ensures i < |s| ==> |r| == |s| - 1
    ensures i >= |s| ==> r == s
    ensures forall j :: 0 <= j < i && j < |r| ==> r[j] == s[j]
    ensures forall j :: i <= j < |r| ==> r[j] == s[j + 1]
  {
    if i < |s| then s[..i] + s[i + 1..] else s
  }

  /** `s.filter((_, j) => j !== i)` for the slice of an array starting at position `base`. */
  function DropIndex<T>(s: seq<T>, i: int, base: nat): seq<T>
    decreases |s|
  {
    if s == [] then []
    else (if base == i then [] else [s[0]]) + DropIndex(s[1..], i, base + 1)
  }

  /** Filtering out an index and splicing it out give the same list. */
  lemma {:induction false} DropIndexIsRemoveAt<T>(s: seq<T>, i: nat, base: nat)
    requires base <= i
    ensures DropIndex(s, i, base) == RemoveAt(s, i - base)
  {
    if s != [] {
      if base == i {
        DropIndexOutOfRange(s[1..], i, base + 1);
      } else {
        DropIndexIsRemoveAt(s[1..], i, base + 1);
        if i - base < |s| {
          assert [s[0]] + RemoveAt(s[1..], i - base - 1) == RemoveAt(s, i - base);
        }
      }
    }
  }

  lemma {:induction false} DropIndexOutOfRange<T>(s: seq<T>, i: int, base: nat)
    requires i < base
    ensures DropIndex(s, i, base) == s
  {
    if s != [] {
      DropIndexOutOfRange(s[1..], i, base + 1);
    }
  }

  /** Inserts `x` so that it ends up at position `i`. */
  function InsertAt<T>(s: seq<T>, i: nat, x: T): (r: seq<T>)
    requires i <= |s|
    ensures |r| == |s| + 1 && r[i] == x
    ensures RemoveAt(r, i) == s
    ensures multiset(r) == multiset(s) + multiset{x}
  {
    assert s == s[..i] + s[i..];
    var r := s[..i] + [x] + s[i..];
    assert r[..i] == s[..i] && r[i + 1..] == s[i..];
    r
  }

  /** `arrayMove(s, from, to)`: takes out the element at `from` and re-inserts it at `to`. */
  function Move<T>(s: seq<T>, from: nat, to: nat): (r: seq<T>)
    requires from < |s| && to < |s|
    ensures |r| == |s|
    ensures r[to] == s[from]
    ensures RemoveAt(r, to) == RemoveAt(s, from)
    ensures multiset(r) == multiset(s)
  {
    var rest := RemoveAt(s, from);
    assert s == s[..from] + [s[from]] + s[from + 1..];
    InsertAt(rest, to, s[from])
  }

  /** Moving and then mapping is mapping and then moving. */
  lemma MapMove<T, U>(s: seq<T>, from: nat, to: nat, f: T -> U)
    requires from < |s| && to < |s|
    ensures Map(Move(s, from, to), f) == Move(Map(s, f), from, to)
  {
    var a := Map(Move(s, from, to), f);
    var b := Move(Map(s, f), from, to);
    forall j | 0 <= j < |s|
      ensures a[j] == b[j]
    {
      var m := Move(s, from, to);
      var rm := RemoveAt(m, to);
      var rb := RemoveAt(b, to);
      if j < to {
        assert a[j] == f(rm[j]);
        assert rm[j] == RemoveAt(s, from)[j];
        assert b[j] == rb[j];
      } else if j > to {
        assert a[j] == f(rm[j - 1]);
        assert rm[j - 1] == RemoveAt(s, from)[j - 1];
        assert b[j] == rb[j - 1];
      }
    }
  }
}

=== FILE: text.dfy ===
/** The string primitives of JavaScript that the form logic leans on:
    `trim`, `toLowerCase`, `startsWith`, `endsWith`, `includes`,
    `split(".").pop()` and the decimal rendering of a non-negative integer. */
module Text {

  /** The characters `String.prototype.trim` removes: ECMAScript's WhiteSpace
      (tab, vertical tab, form feed, the byte-order mark and every space
      separator) and LineTerminator (LF, CR, LS, PS). */
  predicate IsSpace(c: char) {
    || c == '\t' || c == '\n' || c == '\U{000B}' || c == '\U{000C}' || c == '\r'
    || c == ' ' || c == '\U{00A0}' || c == '\U{1680}'
    || ('\U{2000}' <= c <= '\U{200A}')
    || c == '\U{2028}' || c == '\U{2029}' || c == '\U{202F}' || c == '\U{205F}'
    || c == '\U{3000}' || c == '\U{FEFF}'
  }

  /** Scanning forward from `i`, the index of the first character that is not
      white space (or the length, when there is none). */
  function SkipSpaces(s: string, i: nat): (k: nat)
    requires i <= |s|
    ensures i <= k <= |s|
    ensures forall j :: i <= j < k ==> IsSpace(s[j])
    ensures k < |s| ==> !IsSpace(s[k])
    decreases |s| - i
  {
    if i < |s| && IsSpace(s[i]) then SkipSpaces(s, i + 1) else i
  }

  /** Scanning backward from `j`, the index just past the last character that is
      not white space (or 0, when there is none). */
  function SkipSpacesBack(s: string, j: nat): (k: nat)
    requires j <= |s|
    ensures k <= j
    ensures forall i :: k <= i < j ==> IsSpace(s[i])
    ensures k > 0 ==> !IsSpace(s[k - 1])
  {
    if j > 0 && IsSpace(s[j - 1]) then SkipSpacesBack(s, j - 1) else j
  }

  /** `s.trim()`: the longest infix that neither starts nor ends with white space,
      everything cut away on either side being white space. */
  function Trim(s: string): (r: string)
    ensures |r| <= |s|
    ensures r == [] || (!IsSpace(r[0]) && !IsSpace(r[|r| - 1]))
    ensures var k := SkipSpaces(s, 0);
      && k + |r| <= |s| && r == s[k..k + |r|]
      && (forall i :: 0 <= i < k ==> IsSpace(s[i]))
      && (forall i :: k + |r| <= i < |s| ==> IsSpace(s[i]))
  {
    var start := SkipSpaces(s, 0);
    var end := SkipSpacesBack(s, |s|);
    if end <= start then
      assert start == |s|;
      ""
    else
      s[start..end]
  }

  /** True when trimming leaves nothing: the `!s.trim()` / `s.trim() === ""` test. */
  predicate IsBlank(s: string) {
    Trim(s) == ""
  }

  /** Trimming a trimmed string changes nothing. */
  lemma TrimIdempotent(s: string)
    ensures Trim(Trim(s)) == Trim(s)
  {
    var t := Trim(s);
    if t != [] {
      assert SkipSpaces(t, 0) == 0;
      assert SkipSpacesBack(t, |t|) == |t|;
      assert t[0..|t|] == t;
    }
  }

  /** Blankness is exactly "every character is white space". */
  lemma BlankIffAllSpace(s: string)
    ensures IsBlank(s) <==> forall i :: 0 <= i < |s| ==> IsSpace(s[i])
  {
    var start := SkipSpaces(s, 0);
    var end := SkipSpacesBack(s, |s|);
    if j :| 0 <= j < |s| && !IsSpace(s[j]) {
      assert start <= j < end;
      assert Trim(s) == s[start..end];
    } else {
      assert start == |s|;
    }
  }

  /** One character of `toLowerCase`, for the Basic Latin and Latin-1 letters. */
  function LowerChar(c: char): char {
    if 'A' <= c <= 'Z' || ('\U{00C0}' <= c <= '\U{00DE}' && c != '\U{00D7}') then
      (c as int + 32) as char
    else
      c
  }

  /** `s.toLowerCase()` character by character. */
  function ToLower(s: string): (r: string)
    ensures |r| == |s|
    ensures forall i :: 0 <= i < |s| ==> r[i] == LowerChar(s[i])
  {
    seq(|s|, i requires 0 <= i < |s| => LowerChar(s[i]))
  }

  /** Lower-casing twice is lower-casing once. */
  lemma ToLowerIdempotent(s: string)
    ensures ToLower(ToLower(s)) == ToLower(s)
  {
  }

  predicate IsLower(s: string) {
    ToLower(s) == s
  }

  predicate StartsWith(s: string, prefix: string) {
    |prefix| <= |s| && s[..|prefix|] == prefix
  }

  predicate EndsWith(s: string, suffix: string) {
    |suffix| <= |s| && s[|s| - |suffix|..] == suffix
  }

  /** A concatenation starts with its first part and ends with its second. */
  lemma ConcatAffixes(a: string, b: string)
    ensures StartsWith(a + b, a) && EndsWith(a + b, b)
  {
    assert (a + b)[..|a|] == a;
    assert (a + b)[|a + b| - |b|..] == b;
  }

  /** `head + "." + tail` starts with `head + "."` and ends with `"." + tail`. */
  lemma DotJoinAffixes(head: string, tail: string)
    ensures StartsWith(head + "." + tail, head + ".")
    ensures EndsWith(head + "." + tail, "." + tail)
  {
    ConcatAffixes(head + ".", tail);
    assert head + "." + tail == head + ("." + tail);
    ConcatAffixes(head, "." + tail);
  }

  /** `s.includes(part)`. */
  predicate Contains(s: string, part: string) {
    exists k :: 0 <= k <= |s| - |part| && OccursAt(s, part, k)
  }

  predicate OccursAt(s: string, part: string, k: nat) {
    k + |part| <= |s| && s[k..k + |part|] == part
  }

  /** `s.split(sep).pop()`: the text after the last separator, or all of `s`
      when it has none. */
  function LastSegment(s: string, sep: char): (r: string)
    ensures sep !in r
    ensures |r| <= |s| && r == s[|s| - |r|..]
    ensures |r| < |s| ==> s[|s| - |r| - 1] == sep
  {
    if s == [] then []
    else if s[|s| - 1] == sep then []
    else LastSegment(s[..|s| - 1], sep) + [s[|s| - 1]]
  }

  /** Appending a separator and a separator-free tail makes that tail the last segment. */
  lemma {:induction false} LastSegmentOfJoin(head: string, sep: char, tail: string)
    requires sep !in tail
    ensures LastSegment(head + [sep] + tail, sep) == tail
  {
    var s := head + [sep] + tail;
    if tail != [] {
      var init := tail[..|tail| - 1];
      assert s[..|s| - 1] == head + [sep] + init;
      LastSegmentOfJoin(head, sep, init);
      assert tail == init + [tail[|tail| - 1]];
    }
  }

  predicate IsDigit(c: char) {
    '0' <= c <= '9'
  }

  function DigitChar(d: nat): (c: char)
    requires d < 10
    ensures IsDigit(c)
  {
    ('0' as int + d) as char
  }

  /** `String(n)` for a non-negative integer: its decimal digits, no sign, no leading zero. */
  function NatToString(n: nat): (r: string)
    ensures |r| >= 1
    ensures forall i :: 0 <= i < |r| ==> IsDigit(r[i])
    ensures |r| > 1 ==> r[0] != '0'
  {
    if n < 10 then [DigitChar(n)] else NatToString(n / 10) + [DigitChar(n % 10)]
  }

  /** Reads decimal digits back into a number. */
  function ParseNat(s: string): nat
    requires forall i :: 0 <= i < |s| ==> IsDigit(s[i])
  {
    if s == [] then 0 else ParseNat(s[..|s| - 1]) * 10 + DigitValue(s[|s| - 1])
  }

  function DigitValue(c: char): nat
    requires IsDigit(c)
  {
    c as int - '0' as int
  }

  /** The decimal rendering loses nothing. */
  lemma {:induction false} ParseNatToString(n: nat)
    ensures ParseNat(NatToString(n)) == n
  {
    if n >= 10 {
      var s := NatToString(n);
      assert s[..|s| - 1] == NatToString(n / 10);
      ParseNatToString(n / 10);
    }
  }

  /** So distinct numbers render as distinct strings. */
  lemma NatToStringInjective(a: nat, b: nat)
    requires NatToString(a) == NatToString(b)
    ensures a == b
  {
    ParseNatToString(a);
    ParseNatToString(b);
  }
}

=== FILE: wrappers.dfy ===
/** The optional value used throughout the model for JavaScript's `undefined`/`null`. */
module Wrappers {

  datatype Option<+T> = None | Some(value: T) {

    /** Returns the value in Some, or the default for None (JavaScript's `x ?? d`). */
    function GetOr(default: T): T {
      match this
      case Some(v) => v
      case None => default
    }
  }

  /** JavaScript truthiness of an optional string: present and non-empty. */
  predicate Truthy(s: Option<string>) {
    s.Some? && s.value != ""
  }
}
